=== FILE: README.md ===
# coord2country in Dafny

coord2country answers "which country is this coordinate in?". It keeps an s2 shape index of
country outlines. Each outline is an *indexed loop*: an s2 loop of points plus two strings,
the country's name and its ISO code.

The index is built in one of two ways:

- from GeoJSON features;
- from a compact binary file produced by the `gendata` command.

This project models the core of both paths and proves properties of the model. The modules
are:

- `Base`: bytes, `Option`, `Result`, and the run-time panics the code can raise.
- `BigEndian`: `encoding/binary` big-endian integers of width 2 and 4. It also models Go's
  truncating conversions `uint16(x)` and `uint32(x)`.
- `Stream`: reading from an in-memory byte stream with the three outcomes of `io.ReadFull`
  and `binary.Read`:
  - every byte requested;
  - `io.EOF`, when no byte is left;
  - `io.ErrUnexpectedEOF`, when some bytes but not all are left.
- `Labels`: `strings.Split` on one separator byte, and its inverse `Join`.
- `Codec`: the record format, the writer `saveLoop`, and the record loop of
  `OpenIndexFromData`.
- `RoundTrip`: how the reader frames a record, the round trip of one record and of a whole
  stream, and the effect of a `'|'` inside a name.
- `Truncation`: which prefixes of a written stream the reader accepts.
- `Rings`: `LoopFromPolygon` and `GeomFromLoop`, which convert between GeoJSON rings and s2
  loop vertices.
- `Features`: `IndexFeature` (one entry per polygon, attributed with `ADMIN` and `ISO_A3`)
  and `Query`.
- `Generator`: the `gendata` command. It writes one record per polygon with `ADMIN` and
  `ISO_A2`, and the file it writes opens back to those records.
- `Findings`: two places where the code differs from what the format evidently intends (see
  Findings below). Each is modelled both as written and as corrected.

Some parts are parameters of the model rather than definitions:

- The s2 loop codec (`Loop.Encode`, `Loop.Decode`) is a pair of parameters `encodeLoop` and
  `decodeLoop`. The payload bytes are opaque to the model.
- The degree-to-point conversions are parameters `pointOf` and `latLngOf`, over an abstract
  point type that only needs equality.
- `ForceCCW` is a parameter `forceCcw`.
- The s2 point-in-polygon query is represented by its answer: the positions in the index of
  the shapes that contain the point.

The model follows the code wherever it differs from what the format evidently intends or
from what its comments say:

- A closed ring of three pairs keeps two vertices. It is not rejected.
- An oversized label or payload gets a wrapped length header. No error is raised.
- A stream cut exactly in front of a field of a record opens without error.
- A loop decoder that reports `io.EOF` ends the stream as a success, and the records from
  that one on are dropped.
- The comment at `c2c.go:38-40` describes the label length as a `uint8`, but the code reads
  and writes a `uint16`.

## Model

| member | source | states |
|---|---|---|
| BigEndian.Wrap16 | cmd/gendata/main.go:79 | `uint16(len(buf)-2)`: the result is below 2^16, equals the length when the length fits, and differs from it by a multiple of 2^16 |
| BigEndian.Wrap32 | cmd/gendata/main.go:92 | `uint32(lb.Len())`: the result is below 2^32, equals the length when the length fits, and differs from it by a multiple of 2^32 |
| BigEndian.PutUint16 | cmd/gendata/main.go:79 | the label header is two bytes that read back as the value written |
| BigEndian.PutUint32 | cmd/gendata/main.go:93 | the payload header is four bytes that read back as the value written |
| BigEndian.Uint16 | c2c.go:48-49 | a label-length header read from two bytes is always below 2^16 |
| BigEndian.Uint32 | c2c.go:66-67 | a payload-length header read from four bytes is always below 2^32 |
| BigEndian.Uint16Inverse | c2c.go:48-49 | every two-byte header is the big-endian encoding of the value it is read as |
| BigEndian.Uint32Inverse | c2c.go:66-67 | every four-byte header is the big-endian encoding of the value it is read as |
| Stream.ReadUint16 | c2c.go:48-51 | reading the label length succeeds on at least 2 bytes and consumes exactly 2; on 0 bytes it fails with `io.EOF`, on 1 byte with `io.ErrUnexpectedEOF` |
| Stream.ReadUint32 | c2c.go:66-69 | reading the payload length succeeds on at least 4 bytes and consumes exactly 4; on 0 bytes it fails with `io.EOF`, on 1 to 3 bytes with `io.ErrUnexpectedEOF` |
| Stream.ReadUint16Put | c2c.go:48-51 | reading a written label header gives back its value and leaves exactly the bytes after it |
| Stream.ReadUint32Put | c2c.go:66-69 | reading a written payload header gives back its value and leaves exactly the bytes after it |
| Stream.ReadFullPrefix | c2c.go:71-74 | reading a payload of its own length gives back the payload and leaves exactly the bytes after it |
| Labels.SplitSpec | c2c.go:64 | the pieces of `strings.Split` glue back to the label, no piece holds pipe, and a label without pipe is a single piece |
| Labels.SplitJoin | c2c.go:64 | splitting undoes joining on pieces without pipe: "name", pipe, "iso" splits back into name and iso |
| Labels.SplitAfterFirst | c2c.go:64 | a pipe-free first piece followed by pipe is kept whole, and the rest splits on its own |
| Labels.SplitFirstPiece | c2c.go:64 | the first piece of `a`, pipe, `b` is `a` cut at its first pipe, whatever `b` is |
| Labels.SplitPiecesFit | c2c.go:64 | the first two pieces of a split, with the pipe between them, are no longer than the label they come from |
| Codec.RecordLayout | cmd/gendata/main.go:77-97 | the record layout: the wrapped label length as a 2-byte header, "name", pipe, "iso", the wrapped payload length as a 4-byte header, the payload, and then whatever follows, each at its offset |
| Codec.ReadRecord | c2c.go:47-87 | one turn of the record loop consumes at least the two headers, and what it leaves is a suffix of the stream |
| Codec.ReadRecords | c2c.go:46-88 | each record read takes at least 6 bytes of the stream |
| Codec.OpenIndexFromData | c2c.go:89-95 | `io.EOF` is never reported as an error: the loop's `io.EOF` stop is the success path, so an error result always carries some other stop |
| RoundTrip.ReadRecordFrames | c2c.go:48-86 | a record that is read was framed by its headers: exactly `size` label bytes and `lsize` payload bytes are consumed, the payload decodes to the loop, and the name and country are the first two pipe-separated pieces of the label |
| RoundTrip.ReadFramedRecord | c2c.go:48-86 | conversely, bytes with valid headers, a decodable payload and a label with a pipe are read as that record, and the next record starts right after the payload |
| RoundTrip.PipelessLabel | c2c.go:64-84 | a label without pipe stops the loop only after the payload is read and decoded: with the decoder's error if decoding fails, and with the `svals[1]` index panic otherwise |
| RoundTrip.FramedDecodeError | c2c.go:76-81 | a framed record whose payload the loop decoder rejects stops the loop with the decoder's error, whatever its label holds |
| RoundTrip.RecordFields | cmd/gendata/main.go:77-97 | in a record with encodable fields, the headers hold the true lengths, the payload sits after them, and the label splits into exactly the name and the iso code |
| RoundTrip.RecordRoundTrip | c2c.go:47-87 | a record written by `saveLoop` with pipe-free fields within the header bounds, and a payload the decoder accepts, reads back as the same loop, name and code, and reading stops right after it |
| RoundTrip.PipeInNameFields | cmd/gendata/main.go:80-82 | a record whose name holds a pipe has a label whose first piece is the name cut at that pipe and whose second piece is the rest of the name up to its next pipe |
| RoundTrip.PipeInNameTruncates | c2c.go:83-84 | a pipe in the name makes the reader return the name cut at its first pipe, and a piece of the name in place of the country code |
| RoundTrip.PipeLabelSplit | c2c.go:64 | the first two pieces of the label "a", pipe, "b", pipe, "iso" are `a` and the first piece of `b` |
| RoundTrip.ReadRecordsOne | c2c.go:47-88 | a written record followed by anything adds its loop in front of what follows it |
| RoundTrip.ReadRecordsHead | c2c.go:47-88 | a stream of written records is read one record at a time, in order |
| RoundTrip.ReadRecordsAppend | c2c.go:46-88 | whole written records followed by any bytes are read as exactly those records, in order, then whatever the remaining bytes give |
| RoundTrip.StreamRoundTrip | c2c.go:46-95 | opening a stream written record by record gives back the same loops, names and codes, in write order, with no error: `io.EOF` at a record boundary is success |
| RoundTrip.DecoderEofDropsRest | c2c.go:76-91 | a loop decoder reporting `io.EOF` on a record's payload makes the file open as success with only the records before it: that record and everything after it are silently dropped |
| Truncation.ReadShortRecord | c2c.go:48-74 | a stream shorter than its headers announce stops the loop with `io.EOF` if it ends just in front of a field, and with `io.ErrUnexpectedEOF` otherwise |
| Truncation.CutRecordFields | cmd/gendata/main.go:77-97 | a record cut after `k` bytes keeps the headers that lie entirely before the cut |
| Truncation.CutRecordStops | c2c.go:48-74 | one turn of the loop on a proper prefix of a record stops with `io.EOF` exactly when the cut falls on a field boundary (0, 2, 2+n, 6+n) |
| Truncation.CutAt | cmd/gendata/main.go:84-97 | every proper prefix of a written stream is some whole records followed by a proper prefix of the next record |
| Truncation.TruncatedAfter | c2c.go:46-91 | whole records followed by a proper prefix of one more give the whole records and stop with `io.EOF` on a field boundary, or with `io.ErrUnexpectedEOF` elsewhere |
| Truncation.TruncatedOpen | c2c.go:46-95 | opening a stream cut inside record `j` gives the first `j` records with no error when the cut is on a field boundary, and `io.ErrUnexpectedEOF` otherwise |
| Truncation.PrefixOpens | c2c.go:46-95 | every proper prefix of a written stream either opens to a proper prefix of its records or fails with `io.ErrUnexpectedEOF` |
| Rings.RingLoop | c2c.go:193-205 | a ring of fewer than 3 pairs gives a nil loop; otherwise there is one vertex per pair in order, with latitude and longitude swapped, and the last vertex is dropped exactly when it equals the first |
| Rings.LoopFromPolygon | c2c.go:183-210 | the flattening into `c`, the length check, the two-at-a-time read and the cut of the repeated vertex compute exactly `PolygonLoop` |
| Rings.LoopRing | c2c.go:212-221 | the ring of a loop has one pair more than the loop has vertices, one (lng, lat) pair per vertex in order, and ends with a repeat of its first pair |
| Rings.GeomFromLoop | c2c.go:212-227 | filling the flat `coords` array and copying its first pair to the end computes exactly `LoopRing` |
| Rings.RingRoundTrip | c2c.go:183-228 | when the conversions invert each other, a loop made from a ring and written back is the ring closed: unchanged if its last pair repeats the first, otherwise with the first pair appended |
| Features.PartEntry | c2c.go:163-167 | an entry is made exactly when the polygon has an outer ring and both properties are strings; it holds the outer ring's loop, `ADMIN` and the country code |
| Features.ExpandParts | c2c.go:170-178 | the entries of the polygons, in order, stopping at the first polygon that panics |
| Features.ExpandPanics | c2c.go:160-179 | a feature panics exactly when one of its polygons cannot be turned into an entry |
| Features.ExpandCounts | c2c.go:160-179 | without a panic: one entry for a polygon, one per member for a multipolygon, none for other geometries; each entry carries its polygon's loop and the feature's properties |
| Features.IndexFeature | c2c.go:160-179 | `IndexFeature` keeps what is already indexed and adds at most one entry per polygon |
| Features.IndexFeatureAppends | c2c.go:160-179 | `IndexFeature` appends exactly the `ISO_A3` entries of the feature's polygons in order, and panics exactly when one of them cannot be made |
| Features.QueryResult | c2c.go:151-157 | the answer has one indexed loop per containing shape, each the entry at that shape's position, in the order reported |
| Features.Query | c2c.go:146-158 | the result slice, filled in a loop over the shapes, is exactly `QueryResult` |
| Features.QueryContaining | c2c.go:149-157 | querying with the positions of the containing entries gives exactly the containing entries, in index order |
| Generator.WriteEntries | cmd/gendata/main.go:49-61 | records are written in order until the first nil loop, which panics; each written record is its entry's loop, name and country |
| Generator.GenerateFeature | cmd/gendata/main.go:46-64 | a feature writes at most one record per polygon, and nothing for other geometries |
| Generator.PanicHasCause | cmd/gendata/main.go:41-65 | a run of the scan loop that panics has an item whose handling panicked |
| Generator.CausePanics | cmd/gendata/main.go:41-65 | an item whose handling panics ends the run of the scan loop in a panic, whatever follows it |
| Generator.GeneratePanics | cmd/gendata/main.go:41-65 | the generator panics exactly when one of its features does |
| Generator.SaveAllConcat | cmd/gendata/main.go:84-97 | records written one after another give the concatenation of their bytes |
| Generator.ChainHoldsRecords | cmd/gendata/main.go:41-65 | the bytes the scan loop writes are exactly the records of its run, in order, up to and including the item that panics |
| Generator.FileHoldsRecords | cmd/gendata/main.go:41-65 | the output file is exactly the records the generator writes, in order |
| Generator.GeneratedFileOpens | cmd/gendata/main.go:41-65 | a file the generator wrote opens back to exactly the records it wrote, when the records are encodable and the loop codec round-trips |
| Generator.GeneratorMatchesLibrary | cmd/gendata/main.go:46-64 | without a panic, the generator writes the same loops and names, in the same order, as `IndexFeature` indexes; only the code differs, `ISO_A2` against `ISO_A3` |
| Generator.GeneratedRecords | cmd/gendata/main.go:46-64 | a completed feature writes one record per polygon with its loop, `ADMIN` and `ISO_A2` |
| Findings.WrappedHeaderUnreadable | cmd/gendata/main.go:79 | as written, a name of 65535 letters 'a' with an empty code gives a label of exactly 2^16 bytes with header 0, and opening that one-record file fails with `io.ErrUnexpectedEOF` |
| Findings.OversizedLabelMisread | cmd/gendata/main.go:77-79 | as written, no record whose label is 2^16 bytes or longer reads back as itself, whatever its bytes and whatever follows: the reader never returns both its name and its code, and the first entry of the opened file never holds both |
| Findings.CheckedRoundTrip | c2c.go:47-87 | every record the corrected writer `SaveLoopChecked` accepts (it refuses exactly the labels and payloads too long for their headers), with pipe-free fields and a decodable payload, reads back unchanged whatever follows it |
| Findings.HeaderCutAccepted | c2c.go:55-58 | as written, whole records followed by a record cut right after a length header or after the label open without error, and the cut record is missing |
| Findings.ReadRecordStrict | c2c.go:49-74 | corrected turn: `io.EOF` means the end only when no byte of the record is present; a successful turn is unchanged |
| Findings.ReadRecordsStrict | c2c.go:46-88 | the corrected loop still takes at least 6 bytes per record |
| Findings.OpenIndexStrict | c2c.go:89-95 | the corrected open never reports `io.EOF` as an error |
| Findings.StrictOne | c2c.go:47-88 | the corrected loop reads a written record followed by anything as that record, in front of what follows |
| Findings.StrictHead | c2c.go:47-88 | the corrected loop reads a stream of written records one record at a time |
| Findings.StrictAppend | c2c.go:46-88 | the corrected loop reads whole written records followed by anything as exactly those records, then what follows |
| Findings.StrictRoundTrip | c2c.go:46-95 | the corrected reader still opens every written stream to its records, in order |
| Findings.StrictCutRefused | c2c.go:46-95 | the corrected reader refuses every stream that ends inside a record, with `io.ErrUnexpectedEOF` |

## Left out

- The s2 loop codec (`Loop.Encode`, `Loop.Decode`) is outside this model. It is the pair of
  parameters `encodeLoop` and `decodeLoop`, and stream round trips assume they invert each
  other.
- `s2.PointFromLatLng`, `s2.LatLngFromDegrees`, `s2.LatLngFromPoint` and `s2.LoopFromPoints`
  are floating-point spherical geometry of the s2 library. The conversions are parameters;
  a loop is its vertex sequence.
- The vertex-count special cases of s2's empty and full loops are not modelled.
- Coordinates are `real`, not `float64`. No arithmetic is done on them; they are only moved
  and compared. NaN, which is unequal to itself in Go, is not modelled.
- `ForceCCW` (`simplefeatures`) is a parameter, because its orientation test is
  floating-point geometry of another library.
- `geom.NewSequence`, `geom.NewLineString` and `geom.NewPolygon` in `GeomFromLoop` are not
  modelled. Their errors are discarded by the code, and `GeomFromLoop` is modelled as the
  coordinate ring it builds.
- The `ShapeIndex` and `ContainsPointQuery`: `Query` takes the positions of the shapes that
  contain the point as input, so which shapes contain a point is not modelled.
- `NewIndex`, `idx.Add` and the s2 shape interface of `IndexedLoop` are not modelled. The
  index is the sequence of entries in order of addition.
- JSON parsing, `bufio.Scanner` (including its 4 MiB line limit), `OpenIndexFromGeoJSONSeq`
  and `OpenIndexFromGeoJSON` are not modelled; features are given already parsed. Those two
  functions only call `IndexFeature` per feature, and `IndexFeature` is modelled.
- `OpenIndex` and the embedded data file are not modelled: they are `OpenIndexFromData` on
  fixed bytes.
- `cmd/query` and the test files are not modelled.
- The command-line flags and the creating and opening of files in `gendata` are not
  modelled, and neither are writer I/O errors in `saveLoop`. The output is a byte sequence
  and the writer never fails.
- The guard `n != int(size)` after `io.ReadFull` can never fail and has no branch in the
  model.
- The allocation `make([]byte, lsize)` at `c2c.go:71` is assumed to succeed for every
  `lsize` below 2^32. An out-of-memory failure is not modelled. `Findings.WrappedHeaderUnreadable`
  depends on this: its reader allocates 0x61616161 bytes (about 1.6 GB) before the short
  read fails.
- Labels are byte strings; UTF-8 is not interpreted, matching the byte-level split on `'|'`.
- `Loop.Decode` is a parameter, so whether it reports `io.EOF` on some payload (an empty one,
  say) is not decided here. `RoundTrip.DecoderEofDropsRest` states what the reader then does.
- A nil loop handed to `saveLoop` is modelled as a panic before any byte of that record is
  written. This assumes `Loop.Encode` dereferences the loop before writing.
- Features.IndexFeature: the panic order between the two property assertions and
  `LoopFromPolygon` is fixed as `ADMIN`, country, loop. Only which panic is raised depends on
  it.
- Generator.GenerateFeature: its contract bounds only the count. The full content is stated
  by `Generator.GeneratedRecords` and `Generator.GeneratorMatchesLibrary`.
- Codec.ReadRecords: its contract bounds the count only. The decoded content is stated by
  the `RoundTrip` and `Truncation` lemmas.

## Findings

| source | as written | input that shows it | evidently intended | confidence | as-written member | corrected member |
|---|---|---|---|---|---|---|
| cmd/gendata/main.go:79 | the label length header is `uint16(len(buf)-2)`, which wraps for labels of 2^16 bytes or more | a name of 65535 letters 'a' with an empty ISO code: the label is 65536 bytes and its header is 0, so the reader takes an empty label, reads the payload length 0x61616161 from the name, and opening fails with `io.ErrUnexpectedEOF` | refuse a label or payload whose length does not fit its header | not executed; proved on the model | Findings.WrappedHeaderUnreadable, with Findings.OversizedLabelMisread | Findings.CheckedRoundTrip |
| c2c.go:55-58 | every `io.EOF` from a read inside a record ends the loop as success | whole records followed by only the first 2 bytes of one more record open with no error, and that record is silently missing | accept `io.EOF` only in front of a record; a stream that ends inside a record is `io.ErrUnexpectedEOF` | not executed; proved on the model | Findings.HeaderCutAccepted | Findings.StrictCutRefused, with Findings.StrictRoundTrip |

=== FILE: base.dfy ===
/** Shared vocabulary: bytes, the two failure-carrying wrappers, and the run-time panics
    the modelled code can raise. */
module Base {

  /** One octet, as Go's `byte`. */
  newtype byte = x: int | 0 <= x < 0x100

  /** A value that may be absent; `None` plays the role of Go's nil pointer. */
  datatype Option<+T> = None | Some(value: T)

  /** The outcome of a call that returns a value or an error. */
  datatype Result<+T, +E> = Ok(value: T) | Err(error: E)

  /** Why a feature could not be turned into index entries: a polygon without an outer
      ring (`Coordinates()[0]` out of range), or a property that is missing or not a string
      (the `.(string)` type assertion). */
  datatype Panic = NoOuterRing | NotAString(key: string)
}

=== FILE: bigendian.dfy ===
/** Big-endian fixed-width integers, as `encoding/binary.BigEndian` writes and reads them,
    and Go's truncating conversions `uint16(x)` and `uint32(x)`. */
module BigEndian {
  import opened Base

  const Two16: nat := 0x1_0000
  const Two32: nat := 0x1_0000_0000

  /** `uint16(x)` for a non-negative Go int: only the low 16 bits survive. */
  function Wrap16(x: nat): (r: nat)
    ensures r < Two16
    ensures x < Two16 ==> r == x
    ensures (x - r) % Two16 == 0
  {
    x % Two16
  }

  /** `uint32(x)` for a non-negative Go int: only the low 32 bits survive. */
  function Wrap32(x: nat): (r: nat)
    ensures r < Two32
    ensures x < Two32 ==> r == x
    ensures (x - r) % Two32 == 0
  {
    x % Two32
  }

  /** 256 to the power `width`: the number of values `width` bytes can hold. */
  function Span(width: nat): (r: nat)
    ensures r >= 1
  {
    if width == 0 then 1 else 0x100 * Span(width - 1)
  }

  /** The value of a byte string read most significant byte first. */
  function Value(b: seq<byte>): nat
    decreases |b|
  {
    if |b| == 0 then 0 else Value(b[..|b| - 1]) * 0x100 + b[|b| - 1] as nat
  }

  /** The `width` low bytes of `v`, most significant first. */
  function Put(v: nat, width: nat): (r: seq<byte>)
    ensures |r| == width
    decreases width
  {
    if width == 0 then [] else Put(v / 0x100, width - 1) + [(v % 0x100) as byte]
  }

  /** A byte string holds less than `Span` of its length. */
  lemma {:induction false} ValueBound(b: seq<byte>)
    ensures Value(b) < Span(|b|)
    decreases |b|
  {
    if |b| > 0 {
      ValueBound(b[..|b| - 1]);
      assert Value(b) <= (Span(|b| - 1) - 1) * 0x100 + 0xFF;
    }
  }

  /** Writing a value that fits and reading it back gives the value. */
  lemma {:induction false} ValuePut(v: nat, width: nat)
    requires v < Span(width)
    ensures Value(Put(v, width)) == v
    decreases width
  {
    if width > 0 {
      var r := Put(v, width);
      assert r[..width - 1] == Put(v / 0x100, width - 1);
      ValuePut(v / 0x100, width - 1);
    }
  }

  /** Reading a byte string and writing the value back gives the same bytes. */
  lemma {:induction false} PutValue(b: seq<byte>)
    ensures Put(Value(b), |b|) == b
    decreases |b|
  {
    if |b| > 0 {
      var front := b[..|b| - 1];
      var v := Value(b);
      assert v == Value(front) * 0x100 + b[|b| - 1] as nat;
      assert v / 0x100 == Value(front);
      assert v % 0x100 == b[|b| - 1] as nat;
      PutValue(front);
      assert front + [b[|b| - 1]] == b;
    }
  }

  /** The value of two bytes read most significant first. */
  function Uint16(b: seq<byte>): (v: nat)
    requires |b| == 2
    ensures v < Two16
  {
    ValueBound(b);
    Value(b)
  }

  /** The value of four bytes read most significant first. */
  function Uint32(b: seq<byte>): (v: nat)
    requires |b| == 4
    ensures v < Two32
  {
    ValueBound(b);
    Value(b)
  }

  /** `PutUint16`: two bytes that read back as `v`. */
  function PutUint16(v: nat): (r: seq<byte>)
    requires v < Two16
    ensures |r| == 2
    ensures Uint16(r) == v
  {
    ValuePut(v, 2);
    Put(v, 2)
  }

  /** `PutUint32`: four bytes that read back as `v`. */
  function PutUint32(v: nat): (r: seq<byte>)
    requires v < Two32
    ensures |r| == 4
    ensures Uint32(r) == v
  {
    ValuePut(v, 4);
    Put(v, 4)
  }

  /** Every two-byte header is the encoding of the value it reads as. */
  lemma Uint16Inverse(b: seq<byte>)
    requires |b| == 2
    ensures PutUint16(Uint16(b)) == b
  {
    PutValue(b);
  }

  /** Every four-byte header is the encoding of the value it reads as. */
  lemma Uint32Inverse(b: seq<byte>)
    requires |b| == 4
    ensures PutUint32(Uint32(b)) == b
  {
    PutValue(b);
  }
}

=== FILE: codec.dfy ===
/** The binary index file: one record per indexed loop, no header or footer.

      record := uint16 BE  length of "name|iso"
                "name|iso"
                uint32 BE  length of the loop payload
                loop payload

    The writer is `saveLoop` of the generator command, the reader the record loop of
    `OpenIndexFromData`. The loop payload is the s2 encoding of a loop; its format belongs
    to the geometry library, so the codec takes it as opaque bytes and the library's
    `Loop.Decode` as the parameter `decodeLoop`. */
module Codec {
  import opened Base
  import opened BigEndian
  import opened Stream
  import opened Labels

  /** The byte '|' that separates the name from the country code. */
  const Pipe: byte := 0x7C

  /** A loop with its two attributes. */
  datatype IndexedLoop<+L> = IndexedLoop(loop: L, name: seq<byte>, country: seq<byte>)

  /** The text "name|iso" stored in a record. */
  function Label(name: seq<byte>, iso: seq<byte>): seq<byte>
  {
    name + [Pipe] + iso
  }

  /** `saveLoop`: the bytes written for one loop whose s2 encoding is `payload`. Both
      length headers are Go conversions to a fixed width, so oversized fields wrap. */
  function SaveLoop(payload: seq<byte>, name: seq<byte>, iso: seq<byte>): seq<byte>
  {
    PutUint16(Wrap16(|name| + 1 + |iso|)) + Label(name, iso) + PutUint32(Wrap32(|payload|)) + payload
  }

  /** Where the five pieces of `h + text + k + payload + rest` sit. */
  lemma FrameSlices(h: seq<byte>, text: seq<byte>, k: seq<byte>, payload: seq<byte>, rest: seq<byte>)
    ensures var s := h + text + k + payload + rest;
      var a := |h|;
      var b := a + |text|;
      var c := b + |k|;
      var d := c + |payload|;
      && |s| == d + |rest|
      && s[..a] == h
      && s[a..b] == text
      && s[b..c] == k
      && s[c..d] == payload
      && s[d..] == rest
  {
    var s := h + text + k + payload + rest;
    assert s == h + (text + (k + (payload + rest)));
  }

  /** Concatenation of byte strings is associative. */
  lemma Associate(x: seq<byte>, y: seq<byte>, z: seq<byte>)
    ensures x + (y + z) == (x + y) + z
  {
  }

  /** The layout of a record followed by more bytes: the two headers, the label "name|iso",
      the payload, and then the bytes that follow. */
  lemma RecordLayout(payload: seq<byte>, name: seq<byte>, iso: seq<byte>, rest: seq<byte>)
    ensures var s := SaveLoop(payload, name, iso) + rest;
      var n := |name| + 1 + |iso|;
      var m := |payload|;
      && |s| == 6 + n + m + |rest|
      && Uint16(s[..2]) == Wrap16(n)
      && s[2..2 + n] == Label(name, iso)
      && Uint32(s[2 + n..6 + n]) == Wrap32(m)
      && s[6 + n..6 + n + m] == payload
      && s[6 + n + m..] == rest
  {
    var text := Label(name, iso);
    var h := PutUint16(Wrap16(|text|));
    var k := PutUint32(Wrap32(|payload|));
    assert SaveLoop(payload, name, iso) + rest == h + text + k + payload + rest;
    FrameSlices(h, text, k, payload, rest);
  }

  /** The records of a sequence of loops, written one after another. */
  function SaveAll<L>(loops: seq<IndexedLoop<L>>, encodeLoop: L -> seq<byte>): (r: seq<byte>)
    decreases |loops|
  {
    if |loops| == 0 then []
    else SaveLoop(encodeLoop(loops[0].loop), loops[0].name, loops[0].country)
         + SaveAll(loops[1..], encodeLoop)
  }

  /** Why the record loop stopped: an error returned by a read or by the loop decoder
      (`io.EOF` among them), or the out-of-range panic on `svals[1]`. */
  datatype Halt = Returned(err: IoError) | IndexOutOfRange

  /** One turn of the record loop: a decoded loop and the unread stream, or a halt. */
  datatype Step<+L> = Next(loop: IndexedLoop<L>, rest: seq<byte>) | Stop(halt: Halt)

  /** One turn of the record loop of `OpenIndexFromData`. The label is split before the
      payload is read, but the second piece is taken only after the payload has been read
      and decoded, so a label without '|' stops the loop only at that point. The guard
      `n != int(size)` that follows `io.ReadFull` cannot fail and has no branch here. */
  function ReadRecord<L>(s: seq<byte>, decodeLoop: seq<byte> -> Result<L, IoError>): (r: Step<L>)
    ensures r.Next? ==> |r.rest| + 6 <= |s| && s[|s| - |r.rest|..] == r.rest
  {
    match ReadUint16(s)
    case Failed(e) => Stop(Returned(e))
    case Got(size, s1) =>
      match ReadFull(s1, size)
      case Failed(e) => Stop(Returned(e))
      case Got(stb, s2) =>
        var svals := Split(stb, Pipe);
        match ReadUint32(s2)
        case Failed(e) => Stop(Returned(e))
        case Got(lsize, s3) =>
          match ReadFull(s3, lsize)
          case Failed(e) => Stop(Returned(e))
          case Got(lb, s4) =>
            match decodeLoop(lb)
            case Err(e) => Stop(Returned(e))
            case Ok(l) =>
              if |svals| < 2 then Stop(IndexOutOfRange)
              else
                Next(IndexedLoop(l, svals[0], svals[1]), s4)
  }

  /** The loops added to the index before the record loop stopped, and why it stopped. */
  datatype Decoded<+L> = Decoded(loops: seq<IndexedLoop<L>>, halt: Halt)

  /** The record loop of `OpenIndexFromData`, run until it stops. Every record takes at
      least six bytes. */
  function ReadRecords<L>(s: seq<byte>, decodeLoop: seq<byte> -> Result<L, IoError>): (r: Decoded<L>)
    ensures 6 * |r.loops| <= |s|
    decreases |s|
  {
    match ReadRecord(s, decodeLoop)
    case Stop(h) => Decoded([], h)
    case Next(il, rest) =>
      var d := ReadRecords(rest, decodeLoop);
      Decoded([il] + d.loops, d.halt)
  }

  /** `OpenIndexFromData`: the loops of the stream, in stream order, when the record loop
      stops with `io.EOF`; otherwise no index at all, but the returned error, or the
      `svals[1]` panic as `Err(IndexOutOfRange)`. */
  function OpenIndexFromData<L>(s: seq<byte>, decodeLoop: seq<byte> -> Result<L, IoError>)
    : (r: Result<seq<IndexedLoop<L>>, Halt>)
    ensures r.Err? ==> r.error != Returned(EOF)
    ensures ReadRecords(s, decodeLoop).halt == Returned(EOF) ==> r == Ok(ReadRecords(s, decodeLoop).loops)
    ensures ReadRecords(s, decodeLoop).halt != Returned(EOF) ==> r == Err(ReadRecords(s, decodeLoop).halt)
  {
    var d := ReadRecords(s, decodeLoop);
    if d.halt == Returned(EOF) then Ok(d.loops) else Err(d.halt)
  }
}

=== FILE: features.dfy ===
/** Feature dispatch: a GeoJSON feature becomes one indexed loop per polygon it holds, each
    carrying the feature's name (`ADMIN`) and country code. The library indexes with the
    `ISO_A3` code, the generator with `ISO_A2`; the expansion is shared and takes the key.
    `ForceCCW` is the parameter `forceCcw`, and the conversion to points is `pointOf`. */
module Features {
  import opened Base
  import opened Rings
  import opened Codec

  /** A decoded JSON property value: a string, or anything else (number, boolean, null,
      array, object). */
  datatype Json = JString(text: seq<byte>) | JOther

  /** The geometry of a feature: a polygon (rings, outer first), a multipolygon (its
      polygons in order), or any other geometry type. */
  datatype Geometry = Polygon(rings: seq<Ring>) | MultiPolygon(polygons: seq<seq<Ring>>) | OtherGeometry

  /** A feature: its geometry and its property map. */
  datatype Feature = Feature(geometry: Geometry, properties: map<string, Json>)

  const AdminKey: string := "ADMIN"
  const IsoA3Key: string := "ISO_A3"
  const IsoA2Key: string := "ISO_A2"

  /** What the index stores per polygon: the loop may be nil. */
  type Entry<P> = IndexedLoop<Option<seq<P>>>

  /** The polygons a geometry is split into: itself for a polygon, its members in order for
      a multipolygon, none for anything else. */
  function Parts(g: Geometry): (parts: seq<seq<Ring>>)
    ensures g.Polygon? ==> parts == [g.rings]
    ensures g.MultiPolygon? ==> parts == g.polygons
    ensures g.OtherGeometry? ==> parts == []
  {
    match g
    case Polygon(rings) => [rings]
    case MultiPolygon(polygons) => polygons
    case OtherGeometry => []
  }

  /** `properties[key].(string)`: the string under `key`, or a panic when the key is
      missing or holds anything but a string. */
  function StringProperty(properties: map<string, Json>, key: string): (r: Result<seq<byte>, Panic>)
    ensures r.Ok? <==> key in properties && properties[key].JString?
    ensures r.Ok? ==> r.value == properties[key].text
    ensures r.Err? ==> r.error == NotAString(key)
  {
    if key in properties && properties[key].JString? then Ok(properties[key].text)
    else Err(NotAString(key))
  }

  /** The entry for one polygon of a feature: its loop after `ForceCCW`, the feature's
      name and its country code under `countryKey`. Any of the three may panic. */
  function PartEntry<P(==)>(part: seq<Ring>, properties: map<string, Json>, countryKey: string,
                            forceCcw: seq<Ring> -> seq<Ring>, pointOf: LatLng -> P)
    : (r: Result<Entry<P>, Panic>)
    ensures r.Ok? <==>
      && |forceCcw(part)| > 0
      && StringProperty(properties, AdminKey).Ok?
      && StringProperty(properties, countryKey).Ok?
    ensures r.Ok? ==> r.value == IndexedLoop(RingLoop(forceCcw(part)[0], pointOf),
                                             properties[AdminKey].text,
                                             properties[countryKey].text)
  {
    match StringProperty(properties, AdminKey)
    case Err(e) => Err(e)
    case Ok(name) =>
      match StringProperty(properties, countryKey)
      case Err(e) => Err(e)
      case Ok(country) =>
        match PolygonLoop(forceCcw(part), pointOf)
        case Err(e) => Err(e)
        case Ok(loop) => Ok(IndexedLoop(loop, name, country))
  }

  /** The entries added for a sequence of polygons before a panic, if one happens. */
  datatype Expansion<P> = Expansion(entries: seq<Entry<P>>, panicked: bool)

  /** The entries of the polygons in order, stopping at the first one that panics. */
  function ExpandParts<P(==)>(parts: seq<seq<Ring>>, properties: map<string, Json>, countryKey: string,
                              forceCcw: seq<Ring> -> seq<Ring>, pointOf: LatLng -> P)
    : (e: Expansion<P>)
    ensures |e.entries| <= |parts|
    ensures !e.panicked ==> |e.entries| == |parts|
    ensures forall i :: 0 <= i < |e.entries| ==>
      PartEntry(parts[i], properties, countryKey, forceCcw, pointOf) == Ok(e.entries[i])
    ensures e.panicked ==>
      && |e.entries| < |parts|
      && PartEntry(parts[|e.entries|], properties, countryKey, forceCcw, pointOf).Err?
    decreases |parts|
  {
    if |parts| == 0 then Expansion([], false)
    else
      match PartEntry(parts[0], properties, countryKey, forceCcw, pointOf)
      case Err(_) => Expansion([], true)
      case Ok(entry) =>
        var more := ExpandParts(parts[1..], properties, countryKey, forceCcw, pointOf);
        Expansion([entry] + more.entries, more.panicked)
  }

  /** The entries of a feature with the country code taken from `countryKey`. */
  function ExpandFeature<P(==)>(f: Feature, countryKey: string,
                                forceCcw: seq<Ring> -> seq<Ring>, pointOf: LatLng -> P)
    : (e: Expansion<P>)
    ensures |e.entries| <= |Parts(f.geometry)|
  {
    ExpandParts(Parts(f.geometry), f.properties, countryKey, forceCcw, pointOf)
  }

  /** An expansion panics exactly when some polygon cannot be turned into an entry, and
      then it has added the entries of the polygons before the first such one. */
  lemma {:induction false} ExpandPanics<P>(parts: seq<seq<Ring>>, properties: map<string, Json>,
                                               countryKey: string,
                                               forceCcw: seq<Ring> -> seq<Ring>, pointOf: LatLng -> P)
    ensures var e := ExpandParts(parts, properties, countryKey, forceCcw, pointOf);
      e.panicked <==>
        exists i :: 0 <= i < |parts| && PartEntry(parts[i], properties, countryKey, forceCcw, pointOf).Err?
    decreases |parts|
  {
    var e := ExpandParts(parts, properties, countryKey, forceCcw, pointOf);
    if e.panicked {
      var i := |e.entries|;
      assert PartEntry(parts[i], properties, countryKey, forceCcw, pointOf).Err?;
    } else {
      forall i | 0 <= i < |parts|
        ensures PartEntry(parts[i], properties, countryKey, forceCcw, pointOf).Ok?
      {
        assert PartEntry(parts[i], properties, countryKey, forceCcw, pointOf) == Ok(e.entries[i]);
      }
    }
  }

  /** Without a panic a feature gives exactly one entry for a polygon, one per member for a
      multipolygon, in member order, and none for other geometries; each entry carries the
      loop of its polygon and the feature's two properties. */
  lemma ExpandCounts<P>(f: Feature, countryKey: string,
                            forceCcw: seq<Ring> -> seq<Ring>, pointOf: LatLng -> P)
    ensures var e := ExpandFeature(f, countryKey, forceCcw, pointOf);
      && (f.geometry.OtherGeometry? ==> e == Expansion([], false))
      && (!e.panicked && f.geometry.Polygon? ==> |e.entries| == 1)
      && (!e.panicked && f.geometry.MultiPolygon? ==> |e.entries| == |f.geometry.polygons|)
      && (forall i :: 0 <= i < |e.entries| ==>
            && e.entries[i].loop == RingLoop(forceCcw(Parts(f.geometry)[i])[0], pointOf)
            && e.entries[i].name == f.properties[AdminKey].text
            && e.entries[i].country == f.properties[countryKey].text)
  {
    var e := ExpandFeature(f, countryKey, forceCcw, pointOf);
    forall i | 0 <= i < |e.entries|
      ensures e.entries[i].loop == RingLoop(forceCcw(Parts(f.geometry)[i])[0], pointOf)
      ensures e.entries[i].name == f.properties[AdminKey].text
      ensures e.entries[i].country == f.properties[countryKey].text
    {
      assert PartEntry(Parts(f.geometry)[i], f.properties, countryKey, forceCcw, pointOf) == Ok(e.entries[i]);
    }
  }

  /** What an index holds after adding features: its entries in order of addition, and
      whether a panic cut the run short. */
  datatype Run<P> = Run(index: seq<Entry<P>>, panicked: bool)

  /** `IndexFeature`: the entries of the feature, attributed with `ADMIN` and `ISO_A3`,
      appended to the index; a panic leaves the entries added before it. */
  function IndexFeature<P(==)>(index: seq<Entry<P>>, f: Feature,
                               forceCcw: seq<Ring> -> seq<Ring>, pointOf: LatLng -> P)
    : (r: Run<P>)
    ensures |index| <= |r.index| <= |index| + |Parts(f.geometry)|
    ensures r.index[..|index|] == index
  {
    var e := ExpandFeature(f, IsoA3Key, forceCcw, pointOf);
    Run(index + e.entries, e.panicked)
  }

  /** Adding a feature never changes what is already indexed, appends the feature's
      entries in order, and panics exactly when one of its polygons cannot be indexed. */
  lemma IndexFeatureAppends<P>(index: seq<Entry<P>>, f: Feature,
                                   forceCcw: seq<Ring> -> seq<Ring>, pointOf: LatLng -> P)
    ensures var r := IndexFeature(index, f, forceCcw, pointOf);
      var parts := Parts(f.geometry);
      && (r.panicked <==>
            exists i :: 0 <= i < |parts| && PartEntry(parts[i], f.properties, IsoA3Key, forceCcw, pointOf).Err?)
      && (!r.panicked ==> |r.index| == |index| + |parts|)
      && (forall i :: 0 <= i < |r.index| - |index| ==>
            PartEntry(parts[i], f.properties, IsoA3Key, forceCcw, pointOf) == Ok(r.index[|index| + i]))
  {
    ExpandPanics(Parts(f.geometry), f.properties, IsoA3Key, forceCcw, pointOf);
  }

  /** `Query`: the indexed loops of the shapes the s2 query reports as containing the
      point, given by their ids (positions in the index), in the order reported. The type
      assertion `il.(IndexedLoop)` cannot fail, since the index only holds indexed loops. */
  function QueryResult<L>(index: seq<IndexedLoop<L>>, ids: seq<nat>): (r: seq<IndexedLoop<L>>)
    requires forall k :: 0 <= k < |ids| ==> ids[k] < |index|
    ensures |r| == |ids|
    ensures forall k :: 0 <= k < |ids| ==> r[k] == index[ids[k]]
  {
    seq(|ids|, k requires 0 <= k < |ids| => index[ids[k]])
  }

  /** `Query`, step by step: a result slice as long as the list of shapes, filled in order. */
  method Query<L>(index: seq<IndexedLoop<L>>, ids: seq<nat>) returns (resp: seq<IndexedLoop<L>>)
    requires forall k :: 0 <= k < |ids| ==> ids[k] < |index|
    ensures resp == QueryResult(index, ids)
  {
    resp := [];
    for i := 0 to |ids|
      invariant |resp| == i
      invariant forall k :: 0 <= k < i ==> resp[k] == index[ids[k]]
    {
      resp := resp + [index[ids[i]]];
    }
  }

  /** The loops of the index that satisfy `contains`, in index order. */
  function Containing<L>(index: seq<IndexedLoop<L>>, contains: IndexedLoop<L> -> bool)
    : (r: seq<IndexedLoop<L>>)
    ensures |r| <= |index|
    decreases |index|
  {
    if |index| == 0 then []
    else if contains(index[|index| - 1]) then Containing(index[..|index| - 1], contains) + [index[|index| - 1]]
    else Containing(index[..|index| - 1], contains)
  }

  /** The ids of the loops of the index that satisfy `contains`, ascending. */
  function ContainingIds<L>(index: seq<IndexedLoop<L>>, contains: IndexedLoop<L> -> bool)
    : (ids: seq<nat>)
    ensures forall k :: 0 <= k < |ids| ==> ids[k] < |index|
    decreases |index|
  {
    if |index| == 0 then []
    else if contains(index[|index| - 1]) then ContainingIds(index[..|index| - 1], contains) + [|index| - 1]
    else ContainingIds(index[..|index| - 1], contains)
  }

  /** When the s2 query reports the ids of exactly the containing loops in ascending order,
      the answer is the containing loops in index order: nothing dropped, nothing added,
      nothing reordered. */
  lemma {:induction false} QueryContaining<L>(index: seq<IndexedLoop<L>>, contains: IndexedLoop<L> -> bool)
    ensures QueryResult(index, ContainingIds(index, contains)) == Containing(index, contains)
    decreases |index|
  {
    if |index| > 0 {
      var front := index[..|index| - 1];
      var ids := ContainingIds(front, contains);
      QueryContaining(front, contains);
      assert QueryResult(front, ids) == QueryResult(index, ids);
    }
  }
}

=== FILE: findings.dfy ===
/** Two places where the code does not do what its format evidently intends, each as the
    code has it, with an input that shows the difference, and as corrected, with the
    intended property proved.

    1. The label length header is `uint16(len(buf)-2)`: a label of 2^16 bytes or more is
       written with a wrapped header, and the reader then misreads the record. The
       corrected writer refuses such a record.
    2. The reader takes `io.EOF` from any read of a record as the end of the stream, so a
       stream cut right after a length header loses its last record without an error. The
       corrected reader accepts `io.EOF` only in front of a record. */
module Findings {
  import opened Base
  import opened BigEndian
  import opened Stream
  import opened Labels
  import opened Codec
  import opened RoundTrip
  import opened Truncation

  // ---- 1. The wrapped label header ----

  /** A name of 2^16 - 1 letters 'a', without any '|'. */
  function LongName(): (name: seq<byte>)
    ensures |name| == Two16 - 1
    ensures Pipe !in name
    ensures forall i :: 0 <= i < |name| ==> name[i] == 0x61
  {
    seq(Two16 - 1, _ => 0x61 as byte)
  }

  lemma FourLetters()
    ensures Uint32([0x61, 0x61, 0x61, 0x61]) == 0x6161_6161
  {
    var b1: seq<byte> := [0x61];
    var b2: seq<byte> := [0x61, 0x61];
    var b3: seq<byte> := [0x61, 0x61, 0x61];
    var b4: seq<byte> := [0x61, 0x61, 0x61, 0x61];
    assert b1[..0] == [] && b2[..1] == b1 && b3[..2] == b2 && b4[..3] == b3;
    assert Value(b1) == 0x61;
    assert Value(b2) == 0x6161;
    assert Value(b3) == 0x61_6161;
  }

  /** As written: the record for `LongName()` and an empty country code, whose label is
      exactly 2^16 bytes, gets the header 0. The reader takes an empty label, reads the
      payload length from the first four letters of the name (0x61616161), and fails on
      the short stream: the one record written cannot be read back. */
  lemma WrappedHeaderUnreadable<L>(payload: seq<byte>, decodeLoop: seq<byte> -> Result<L, IoError>)
    requires |payload| < Two16
    ensures OpenIndexFromData(SaveLoop(payload, LongName(), []), decodeLoop) == Err(Returned(UnexpectedEOF))
  {
    var name := LongName();
    var s := SaveLoop(payload, name, []);
    RecordLayout(payload, name, [], []);
    assert s + [] == s;
    assert Uint16(s[..2]) == 0;
    assert s[2..][..0] == [] && s[2..][0..] == s[2..];
    assert s[2..][..4] == name[..4] by {
      assert s[2..2 + Two16] == Label(name, []);
      assert s[2..][..4] == s[2..2 + Two16][..4];
    }
    assert name[..4] == [0x61, 0x61, 0x61, 0x61];
    FourLetters();
    assert s[2..][4..] == s[6..];
    assert 0 < |s[6..]| < 0x6161_6161;
    assert ReadRecord(s, decodeLoop) == Stop(Returned(UnexpectedEOF));
  }

  /** Why the checked writer refuses a record. */
  datatype EncodeError = LabelTooLong | PayloadTooLong

  /** Corrected: `saveLoop` refusing a label or payload whose length its header cannot
      hold, and otherwise writing what the code writes. */
  function SaveLoopChecked(payload: seq<byte>, name: seq<byte>, iso: seq<byte>)
    : (r: Result<seq<byte>, EncodeError>)
    ensures r.Err? <==> |name| + 1 + |iso| >= Two16 || |payload| >= Two32
    ensures r.Ok? ==> r.value == SaveLoop(payload, name, iso)
  {
    if |name| + 1 + |iso| >= Two16 then Err(LabelTooLong)
    else if |payload| >= Two32 then Err(PayloadTooLong)
    else Ok(SaveLoop(payload, name, iso))
  }

  /** Every record the checked writer accepts, with '|'-free attributes and a payload the
      loop decoder accepts, reads back as written, whatever follows it. */
  lemma CheckedRoundTrip<L>(payload: seq<byte>, name: seq<byte>, iso: seq<byte>, rest: seq<byte>,
                            decodeLoop: seq<byte> -> Result<L, IoError>, l: L)
    requires SaveLoopChecked(payload, name, iso).Ok?
    requires Pipe !in name && Pipe !in iso
    requires decodeLoop(payload) == Ok(l)
    ensures ReadRecord(SaveLoopChecked(payload, name, iso).value + rest, decodeLoop)
            == Next(IndexedLoop(l, name, iso), rest)
  {
    RecordRoundTrip(payload, name, iso, rest, decodeLoop, l);
  }

  /** As written, no record whose label is too long for its header reads back as itself,
      whatever its bytes: the wrapped header makes the reader take fewer label bytes than
      "name|iso" holds, so it cannot return both the name and the code. The first record
      of the opened file is then never that record. */
  lemma OversizedLabelMisread<L>(payload: seq<byte>, name: seq<byte>, iso: seq<byte>,
                                 rest: seq<byte>, decodeLoop: seq<byte> -> Result<L, IoError>)
    requires |name| + 1 + |iso| >= Two16
    ensures var r := ReadRecord(SaveLoop(payload, name, iso) + rest, decodeLoop);
      r.Next? ==> r.loop.name != name || r.loop.country != iso
    ensures var o := OpenIndexFromData(SaveLoop(payload, name, iso) + rest, decodeLoop);
      o.Ok? && |o.value| > 0 ==> o.value[0].name != name || o.value[0].country != iso
  {
    var s := SaveLoop(payload, name, iso) + rest;
    var r := ReadRecord(s, decodeLoop);
    if r.Next? {
      ReadRecordFrames(s, decodeLoop);
      var size := Uint16(s[..2]);
      SplitPiecesFit(s[2..2 + size], Pipe);
      assert ReadRecords(s, decodeLoop).loops[0] == r.loop;
    }
  }

  // ---- 2. A cut after a length header ----

  /** As written: whole records followed by a record cut right after its label header,
      right after its label, or right after its payload header, open without error, and
      the cut record is silently missing from the index. */
  lemma HeaderCutAccepted<L>(loops: seq<IndexedLoop<L>>, x: IndexedLoop<L>, k: nat,
                             encodeLoop: L -> seq<byte>,
                             decodeLoop: seq<byte> -> Result<L, IoError>)
    requires AllEncodable(loops + [x], encodeLoop, decodeLoop)
    requires var n := |x.name| + 1 + |x.country|; k == 2 || k == 2 + n || k == 6 + n
    requires k < |SaveLoop(encodeLoop(x.loop), x.name, x.country)|
    ensures OpenIndexFromData(SaveAll(loops, encodeLoop) + SaveLoop(encodeLoop(x.loop), x.name, x.country)[..k],
                              decodeLoop)
            == Ok(loops)
  {
    AllEncodablePrefix(loops, x, encodeLoop, decodeLoop);
    TruncatedAfter(loops, x, k, encodeLoop, decodeLoop);
  }

  lemma AllEncodablePrefix<L>(loops: seq<IndexedLoop<L>>, x: IndexedLoop<L>,
                              encodeLoop: L -> seq<byte>,
                              decodeLoop: seq<byte> -> Result<L, IoError>)
    requires AllEncodable(loops + [x], encodeLoop, decodeLoop)
    ensures AllEncodable(loops, encodeLoop, decodeLoop)
    ensures Encodable(encodeLoop(x.loop), x.name, x.country)
    ensures decodeLoop(encodeLoop(x.loop)) == Ok(x.loop)
  {
    assert (loops + [x])[|loops|] == x;
    forall i | 0 <= i < |loops|
      ensures Encodable(encodeLoop(loops[i].loop), loops[i].name, loops[i].country)
      ensures decodeLoop(encodeLoop(loops[i].loop)) == Ok(loops[i].loop)
    {
      assert (loops + [x])[i] == loops[i];
    }
  }

  /** Corrected: one turn of the record loop in which `io.EOF` ends the stream only when
      not a single byte of the record is there; anywhere else it is
      `io.ErrUnexpectedEOF`. */
  function ReadRecordStrict<L>(s: seq<byte>, decodeLoop: seq<byte> -> Result<L, IoError>): (r: Step<L>)
    ensures r == Stop(Returned(EOF)) ==> |s| == 0
    ensures ReadRecord(s, decodeLoop).Next? ==> r == ReadRecord(s, decodeLoop)
    ensures |s| == 0 ==> r == ReadRecord(s, decodeLoop)
  {
    var r := ReadRecord(s, decodeLoop);
    if r == Stop(Returned(EOF)) && |s| > 0 then Stop(Returned(UnexpectedEOF)) else r
  }

  /** Corrected: the record loop over `ReadRecordStrict`. */
  function ReadRecordsStrict<L>(s: seq<byte>, decodeLoop: seq<byte> -> Result<L, IoError>): (r: Decoded<L>)
    ensures 6 * |r.loops| <= |s|
    decreases |s|
  {
    match ReadRecordStrict(s, decodeLoop)
    case Stop(h) => Decoded([], h)
    case Next(il, rest) =>
      var d := ReadRecordsStrict(rest, decodeLoop);
      Decoded([il] + d.loops, d.halt)
  }

  /** Corrected: opening succeeds only when the record loop ends in front of a record. */
  function OpenIndexStrict<L>(s: seq<byte>, decodeLoop: seq<byte> -> Result<L, IoError>)
    : (r: Result<seq<IndexedLoop<L>>, Halt>)
    ensures r.Err? ==> r.error != Returned(EOF)
  {
    var d := ReadRecordsStrict(s, decodeLoop);
    if d.halt == Returned(EOF) then Ok(d.loops) else Err(d.halt)
  }

  /** The strict reader on a written record followed by anything. */
  lemma StrictOne<L>(payload: seq<byte>, name: seq<byte>, iso: seq<byte>, more: seq<byte>,
                     decodeLoop: seq<byte> -> Result<L, IoError>, l: L)
    requires Encodable(payload, name, iso)
    requires decodeLoop(payload) == Ok(l)
    ensures ReadRecordsStrict(SaveLoop(payload, name, iso) + more, decodeLoop)
            == Decoded([IndexedLoop(l, name, iso)] + ReadRecordsStrict(more, decodeLoop).loops,
                       ReadRecordsStrict(more, decodeLoop).halt)
  {
    RecordRoundTrip(payload, name, iso, more, decodeLoop, l);
    assert ReadRecordStrict(SaveLoop(payload, name, iso) + more, decodeLoop) == Next(IndexedLoop(l, name, iso), more);
  }

  /** One strict turn over a stream of written records. */
  lemma StrictHead<L>(loops: seq<IndexedLoop<L>>, t: seq<byte>,
                      encodeLoop: L -> seq<byte>,
                      decodeLoop: seq<byte> -> Result<L, IoError>)
    requires |loops| > 0
    requires AllEncodable(loops, encodeLoop, decodeLoop)
    ensures ReadRecordsStrict(SaveAll(loops, encodeLoop) + t, decodeLoop)
            == Decoded([loops[0]] + ReadRecordsStrict(SaveAll(loops[1..], encodeLoop) + t, decodeLoop).loops,
                       ReadRecordsStrict(SaveAll(loops[1..], encodeLoop) + t, decodeLoop).halt)
  {
    var x := loops[0];
    var head := SaveLoop(encodeLoop(x.loop), x.name, x.country);
    var more := SaveAll(loops[1..], encodeLoop) + t;
    assert SaveAll(loops, encodeLoop) + t == head + more;
    AllEncodableAt(loops, encodeLoop, decodeLoop, 0);
    StrictOne(encodeLoop(x.loop), x.name, x.country, more, decodeLoop, x.loop);
  }

  /** The strict reader over whole records followed by anything. */
  lemma {:induction false} StrictAppend<L>(loops: seq<IndexedLoop<L>>, t: seq<byte>,
                                           encodeLoop: L -> seq<byte>,
                                           decodeLoop: seq<byte> -> Result<L, IoError>)
    requires AllEncodable(loops, encodeLoop, decodeLoop)
    ensures ReadRecordsStrict(SaveAll(loops, encodeLoop) + t, decodeLoop)
            == Decoded(loops + ReadRecordsStrict(t, decodeLoop).loops, ReadRecordsStrict(t, decodeLoop).halt)
    decreases |loops|
  {
    if |loops| == 0 {
      assert SaveAll(loops, encodeLoop) + t == t;
    } else {
      StrictHead(loops, t, encodeLoop, decodeLoop);
      AllEncodableTail(loops, encodeLoop, decodeLoop);
      StrictAppend(loops[1..], t, encodeLoop, decodeLoop);
      DecodedCons(loops,
                  ReadRecordsStrict(SaveAll(loops, encodeLoop) + t, decodeLoop),
                  ReadRecordsStrict(SaveAll(loops[1..], encodeLoop) + t, decodeLoop),
                  ReadRecordsStrict(t, decodeLoop));
    }
  }

  /** The corrected reader still opens every written stream to its records, in order. */
  lemma StrictRoundTrip<L>(loops: seq<IndexedLoop<L>>, encodeLoop: L -> seq<byte>,
                           decodeLoop: seq<byte> -> Result<L, IoError>)
    requires AllEncodable(loops, encodeLoop, decodeLoop)
    ensures OpenIndexStrict(SaveAll(loops, encodeLoop), decodeLoop) == Ok(loops)
  {
    StrictAppend(loops, [], encodeLoop, decodeLoop);
    assert SaveAll(loops, encodeLoop) + [] == SaveAll(loops, encodeLoop);
    assert loops + [] == loops;
  }

  /** The corrected reader refuses every stream that ends inside a record: whole records
      followed by a non-empty proper prefix of one more fail with `io.ErrUnexpectedEOF`. */
  lemma StrictCutRefused<L>(loops: seq<IndexedLoop<L>>, x: IndexedLoop<L>, k: nat,
                            encodeLoop: L -> seq<byte>,
                            decodeLoop: seq<byte> -> Result<L, IoError>)
    requires AllEncodable(loops + [x], encodeLoop, decodeLoop)
    requires 0 < k < |SaveLoop(encodeLoop(x.loop), x.name, x.country)|
    ensures OpenIndexStrict(SaveAll(loops, encodeLoop) + SaveLoop(encodeLoop(x.loop), x.name, x.country)[..k],
                            decodeLoop)
            == Err(Returned(UnexpectedEOF))
  {
    var cut := SaveLoop(encodeLoop(x.loop), x.name, x.country)[..k];
    AllEncodablePrefix(loops, x, encodeLoop, decodeLoop);
    StrictAppend(loops, cut, encodeLoop, decodeLoop);
    CutRecordStops(encodeLoop(x.loop), x.name, x.country, k, decodeLoop);
    assert ReadRecordStrict(cut, decodeLoop) == Stop(Returned(UnexpectedEOF));
  }
}

=== FILE: generator.dfy ===
/** The data generator: for every feature read from the GeoJSON sequence, one record per
    polygon, written with `saveLoop` and attributed with `ADMIN` and `ISO_A2`. A nil loop
    reaches `saveLoop`, whose `Loop.Encode` dereferences it and panics before anything of
    that record is written; so does a failed type assertion or a polygon without rings.
    A panic ends the program with the records written so far. */
module Generator {
  import opened Base
  import opened Rings
  import opened Codec
  import opened Features
  import opened RoundTrip

  /** The records written, in order, and whether the run ended in a panic. */
  datatype Output<P> = Output(written: seq<IndexedLoop<seq<P>>>, panicked: bool)

  /** `saveLoop` on each entry in turn, stopping at the first nil loop. */
  function WriteEntries<P>(entries: seq<Entry<P>>): (o: Output<P>)
    ensures |o.written| <= |entries|
    ensures forall i :: 0 <= i < |o.written| ==>
      entries[i] == IndexedLoop(Some(o.written[i].loop), o.written[i].name, o.written[i].country)
    ensures !o.panicked ==> |o.written| == |entries|
    ensures o.panicked ==> |o.written| < |entries| && entries[|o.written|].loop.None?
    decreases |entries|
  {
    if |entries| == 0 then Output([], false)
    else
      match entries[0].loop
      case None => Output([], true)
      case Some(loop) =>
        var more := WriteEntries(entries[1..]);
        Output([IndexedLoop(loop, entries[0].name, entries[0].country)] + more.written, more.panicked)
  }

  /** The records the generator writes for one feature. */
  function GenerateFeature<P(==)>(f: Feature, forceCcw: seq<Ring> -> seq<Ring>, pointOf: LatLng -> P)
    : (o: Output<P>)
    ensures |o.written| <= |Parts(f.geometry)|
    ensures f.geometry.OtherGeometry? ==> o == Output([], false)
  {
    var e := ExpandFeature(f, IsoA2Key, forceCcw, pointOf);
    var w := WriteEntries(e.entries);
    Output(w.written, e.panicked || w.panicked)
  }

  /** The scan loop of `main`: each item handled in turn by `write`, stopping after the
      first one that panics. */
  function Chain<X, P>(xs: seq<X>, write: X -> Output<P>): Output<P>
    decreases |xs|
  {
    if |xs| == 0 then Output([], false)
    else
      var first := write(xs[0]);
      if first.panicked then first
      else
        var more := Chain(xs[1..], write);
        Output(first.written + more.written, more.panicked)
  }

  /** The bytes the scan loop writes: each item's records, up to and including the item
      that panics. */
  function ChainBytes<X, P>(xs: seq<X>, write: X -> Output<P>, encodeLoop: seq<P> -> seq<byte>): seq<byte>
    decreases |xs|
  {
    if |xs| == 0 then []
    else
      var first := write(xs[0]);
      var bytes := SaveAll(first.written, encodeLoop);
      if first.panicked then bytes
      else bytes + ChainBytes(xs[1..], write, encodeLoop)
  }

  /** What the loop body of `main` does with one feature. */
  function Writer<P(==)>(forceCcw: seq<Ring> -> seq<Ring>, pointOf: LatLng -> P): Feature -> Output<P>
  {
    f => GenerateFeature(f, forceCcw, pointOf)
  }

  /** The records the generator writes for a sequence of features, up to the first panic. */
  function Generate<P(==)>(features: seq<Feature>, forceCcw: seq<Ring> -> seq<Ring>, pointOf: LatLng -> P)
    : Output<P>
  {
    Chain(features, Writer(forceCcw, pointOf))
  }

  /** The output file, written feature by feature and record by record. */
  function FileBytes<P(==)>(features: seq<Feature>, forceCcw: seq<Ring> -> seq<Ring>, pointOf: LatLng -> P,
                            encodeLoop: seq<P> -> seq<byte>): seq<byte>
  {
    ChainBytes(features, Writer(forceCcw, pointOf), encodeLoop)
  }

  /** A run of the scan loop that panics has an item that panicked. */
  lemma {:induction false} PanicHasCause<X, P>(xs: seq<X>, write: X -> Output<P>)
    requires Chain(xs, write).panicked
    ensures exists i :: 0 <= i < |xs| && write(xs[i]).panicked
    decreases |xs|
  {
    if !write(xs[0]).panicked {
      var tail := xs[1..];
      PanicHasCause(tail, write);
      var i :| 0 <= i < |tail| && write(tail[i]).panicked;
      assert tail[i] == xs[i + 1];
    }
  }

  /** An item that panics ends the run of the scan loop in a panic, whatever follows it. */
  lemma {:induction false} CausePanics<X, P>(xs: seq<X>, i: nat, write: X -> Output<P>)
    requires i < |xs| && write(xs[i]).panicked
    ensures Chain(xs, write).panicked
    decreases i
  {
    if i > 0 && !write(xs[0]).panicked {
      var tail := xs[1..];
      assert tail[i - 1] == xs[i];
      CausePanics(tail, i - 1, write);
    }
  }

  /** The generator ends in a panic exactly when one of its features does; the features
      after the first such one are never read. */
  lemma GeneratePanics<P>(features: seq<Feature>, forceCcw: seq<Ring> -> seq<Ring>, pointOf: LatLng -> P)
    ensures Generate(features, forceCcw, pointOf).panicked
            <==> exists i :: 0 <= i < |features| && GenerateFeature(features[i], forceCcw, pointOf).panicked
  {
    var write := Writer(forceCcw, pointOf);
    if Generate(features, forceCcw, pointOf).panicked {
      PanicHasCause(features, write);
      var i :| 0 <= i < |features| && write(features[i]).panicked;
      assert write(features[i]) == GenerateFeature(features[i], forceCcw, pointOf);
    } else if exists i :: 0 <= i < |features| && GenerateFeature(features[i], forceCcw, pointOf).panicked {
      var i :| 0 <= i < |features| && GenerateFeature(features[i], forceCcw, pointOf).panicked;
      assert write(features[i]) == GenerateFeature(features[i], forceCcw, pointOf);
      CausePanics(features, i, write);
    }
  }

  /** Records written one after another are the concatenation of their writings. */
  lemma {:induction false} SaveAllConcat<L>(a: seq<IndexedLoop<L>>, b: seq<IndexedLoop<L>>,
                                            encodeLoop: L -> seq<byte>)
    ensures SaveAll(a + b, encodeLoop) == SaveAll(a, encodeLoop) + SaveAll(b, encodeLoop)
    decreases |a|
  {
    if |a| > 0 {
      var ab := a + b;
      assert ab[0] == a[0];
      assert ab[1..] == a[1..] + b;
      var head := SaveLoop(encodeLoop(a[0].loop), a[0].name, a[0].country);
      SaveAllCons(ab, encodeLoop);
      SaveAllCons(a, encodeLoop);
      SaveAllConcat(a[1..], b, encodeLoop);
      Associate(head, SaveAll(a[1..], encodeLoop), SaveAll(b, encodeLoop));
    } else {
      assert a + b == b;
    }
  }

  /** The bytes of the scan loop are exactly the records of its run, in order. */
  lemma {:induction false} ChainHoldsRecords<X, P>(xs: seq<X>, write: X -> Output<P>,
                                                   encodeLoop: seq<P> -> seq<byte>)
    ensures ChainBytes(xs, write, encodeLoop) == SaveAll(Chain(xs, write).written, encodeLoop)
    decreases |xs|
  {
    if |xs| > 0 {
      var first := write(xs[0]);
      if !first.panicked {
        ChainHoldsRecords(xs[1..], write, encodeLoop);
        SaveAllConcat(first.written, Chain(xs[1..], write).written, encodeLoop);
      }
    }
  }

  /** The file holds exactly the records of `Generate`, in order. */
  lemma FileHoldsRecords<P>(features: seq<Feature>, forceCcw: seq<Ring> -> seq<Ring>,
                            pointOf: LatLng -> P, encodeLoop: seq<P> -> seq<byte>)
    ensures FileBytes(features, forceCcw, pointOf, encodeLoop)
            == SaveAll(Generate(features, forceCcw, pointOf).written, encodeLoop)
  {
    ChainHoldsRecords(features, Writer(forceCcw, pointOf), encodeLoop);
  }

  /** A file the generator finished is read back by `OpenIndexFromData` as the records it
      wrote, in order, when every record is encodable and the loop codec round-trips. */
  lemma GeneratedFileOpens<P>(features: seq<Feature>, forceCcw: seq<Ring> -> seq<Ring>,
                                  pointOf: LatLng -> P, encodeLoop: seq<P> -> seq<byte>,
                                  decodeLoop: seq<byte> -> Result<seq<P>, Stream.IoError>)
    requires AllEncodable(Generate(features, forceCcw, pointOf).written, encodeLoop, decodeLoop)
    ensures OpenIndexFromData(FileBytes(features, forceCcw, pointOf, encodeLoop), decodeLoop)
            == Ok(Generate(features, forceCcw, pointOf).written)
  {
    FileHoldsRecords(features, forceCcw, pointOf, encodeLoop);
    StreamRoundTrip(Generate(features, forceCcw, pointOf).written, encodeLoop, decodeLoop);
  }

  /** Without a panic the generator writes, for each polygon of a feature in order, the
      loop and name the library indexes for it; only the country code differs, `ISO_A2`
      here and `ISO_A3` in the library. */
  lemma GeneratorMatchesLibrary<P>(f: Feature, forceCcw: seq<Ring> -> seq<Ring>, pointOf: LatLng -> P)
    requires !GenerateFeature(f, forceCcw, pointOf).panicked
    requires !ExpandFeature(f, IsoA3Key, forceCcw, pointOf).panicked
    ensures var g := GenerateFeature(f, forceCcw, pointOf).written;
      var lib := ExpandFeature(f, IsoA3Key, forceCcw, pointOf).entries;
      && |g| == |lib| == |Parts(f.geometry)|
      && forall i :: 0 <= i < |g| ==>
           && lib[i].loop == Some(g[i].loop)
           && lib[i].name == g[i].name
           && g[i].country == f.properties[IsoA2Key].text
           && lib[i].country == f.properties[IsoA3Key].text
  {
    var parts := Parts(f.geometry);
    var e2 := ExpandFeature(f, IsoA2Key, forceCcw, pointOf);
    var lib := ExpandFeature(f, IsoA3Key, forceCcw, pointOf).entries;
    var g := GenerateFeature(f, forceCcw, pointOf).written;
    forall i | 0 <= i < |g|
      ensures lib[i].loop == Some(g[i].loop) && lib[i].name == g[i].name
      ensures g[i].country == f.properties[IsoA2Key].text
      ensures lib[i].country == f.properties[IsoA3Key].text
    {
      assert PartEntry(parts[i], f.properties, IsoA2Key, forceCcw, pointOf) == Ok(e2.entries[i]);
      assert PartEntry(parts[i], f.properties, IsoA3Key, forceCcw, pointOf) == Ok(lib[i]);
    }
  }

  /** A feature the generator completes gives one record per polygon, in order, each with
      the polygon's loop, the feature's `ADMIN` name and its `ISO_A2` code. */
  lemma GeneratedRecords<P>(f: Feature, forceCcw: seq<Ring> -> seq<Ring>, pointOf: LatLng -> P)
    requires !GenerateFeature(f, forceCcw, pointOf).panicked
    ensures var g := GenerateFeature(f, forceCcw, pointOf).written;
      && |g| == |Parts(f.geometry)|
      && forall i :: 0 <= i < |g| ==>
           && RingLoop(forceCcw(Parts(f.geometry)[i])[0], pointOf) == Some(g[i].loop)
           && g[i].name == f.properties[AdminKey].text
           && g[i].country == f.properties[IsoA2Key].text
  {
    var parts := Parts(f.geometry);
    var e2 := ExpandFeature(f, IsoA2Key, forceCcw, pointOf);
    var g := GenerateFeature(f, forceCcw, pointOf).written;
    forall i | 0 <= i < |g|
      ensures RingLoop(forceCcw(parts[i])[0], pointOf) == Some(g[i].loop)
      ensures g[i].name == f.properties[AdminKey].text
      ensures g[i].country == f.properties[IsoA2Key].text
    {
      assert PartEntry(parts[i], f.properties, IsoA2Key, forceCcw, pointOf) == Ok(e2.entries[i]);
    }
  }
}

=== FILE: labels.dfy ===
/** `strings.Split(s, sep)` for a one-byte separator, with its inverse `strings.Join`. */
module Labels {
  import opened Base

  /** The pieces glued back together with `sep` between consecutive ones. */
  function Join(parts: seq<seq<byte>>, sep: byte): (s: seq<byte>)
    requires |parts| >= 1
    decreases |parts|
  {
    if |parts| == 1 then parts[0] else parts[0] + [sep] + Join(parts[1..], sep)
  }

  /** True when no piece contains the separator. */
  predicate SepFree(parts: seq<seq<byte>>, sep: byte)
  {
    forall i :: 0 <= i < |parts| ==> sep !in parts[i]
  }

  /** `strings.Split`: the maximal separator-free runs of `s`, in order. The empty string
      splits into one empty piece. */
  function Split(s: seq<byte>, sep: byte): (parts: seq<seq<byte>>)
    ensures |parts| >= 1
    decreases |s|
  {
    if |s| == 0 then [[]]
    else
      var tail := Split(s[1..], sep);
      if s[0] == sep then [[]] + tail
      else [[s[0]] + tail[0]] + tail[1..]
  }

  /** Split and Join are inverse: the pieces glue back to the string, none holds the
      separator, and a string without the separator is a single piece. */
  lemma {:induction false} SplitSpec(s: seq<byte>, sep: byte)
    ensures Join(Split(s, sep), sep) == s
    ensures SepFree(Split(s, sep), sep)
    ensures sep !in s ==> Split(s, sep) == [s]
    decreases |s|
  {
    if |s| > 0 {
      var tail := Split(s[1..], sep);
      SplitSpec(s[1..], sep);
      if s[0] == sep {
        assert s == [] + [sep] + Join(tail, sep);
      } else {
        var parts := [[s[0]] + tail[0]] + tail[1..];
        assert parts[1..] == tail[1..];
        assert s == [s[0]] + s[1..];
        JoinHead(tail, sep);
        assert Join(parts, sep) == s;
        assert SepFree(parts, sep) by {
          forall i | 0 <= i < |parts| ensures sep !in parts[i] {
            if i > 0 { assert parts[i] == tail[i]; }
          }
        }
      }
    }
  }

  /** Prepending to the first piece prepends to the joined string. */
  lemma {:induction false} JoinHead(parts: seq<seq<byte>>, sep: byte)
    requires |parts| >= 1
    ensures forall c: seq<byte> {:trigger c + parts[0]} ::
      Join([c + parts[0]] + parts[1..], sep) == c + Join(parts, sep)
  {
    forall c: seq<byte> ensures Join([c + parts[0]] + parts[1..], sep) == c + Join(parts, sep) {
      var q := [c + parts[0]] + parts[1..];
      assert q[1..] == parts[1..];
      if |parts| > 1 {
        assert Join(q, sep) == (c + parts[0]) + [sep] + Join(parts[1..], sep);
      }
    }
  }

  /** Splitting a separator-free first piece followed by the separator keeps that piece
      whole and splits the remainder on its own. */
  lemma {:induction false} SplitAfterFirst(a: seq<byte>, b: seq<byte>, sep: byte)
    requires sep !in a
    ensures Split(a + [sep] + b, sep) == [a] + Split(b, sep)
    decreases |a|
  {
    var s := a + [sep] + b;
    if |a| == 0 {
      assert s[0] == sep && s[1..] == b;
    } else {
      assert s[0] == a[0] && s[1..] == a[1..] + [sep] + b;
      SplitAfterFirst(a[1..], b, sep);
      assert [a[0]] + a[1..] == a;
    }
  }

  /** Split undoes Join on separator-free pieces. */
  lemma {:induction false} SplitJoin(parts: seq<seq<byte>>, sep: byte)
    requires |parts| >= 1
    requires SepFree(parts, sep)
    ensures Split(Join(parts, sep), sep) == parts
    decreases |parts|
  {
    if |parts| == 1 {
      SplitSpec(parts[0], sep);
    } else {
      assert sep !in parts[0];
      SplitAfterFirst(parts[0], Join(parts[1..], sep), sep);
      SplitJoin(parts[1..], sep);
      assert [parts[0]] + parts[1..] == parts;
    }
  }

  /** The first piece of `a + [sep] + b` depends only on `a`: it is `a` cut at its first
      separator. */
  lemma {:induction false} SplitFirstPiece(a: seq<byte>, b: seq<byte>, sep: byte)
    ensures Split(a + [sep] + b, sep)[0] == Split(a, sep)[0]
    decreases |a|
  {
    var s := a + [sep] + b;
    if |a| == 0 {
      assert s[0] == sep;
    } else {
      assert s[0] == a[0] && s[1..] == a[1..] + [sep] + b;
      SplitFirstPiece(a[1..], b, sep);
    }
  }

  /** The first two pieces of a split, with the separator between them, fit in the string
      they came from. */
  lemma SplitPiecesFit(s: seq<byte>, sep: byte)
    requires |Split(s, sep)| >= 2
    ensures |Split(s, sep)[0]| + 1 + |Split(s, sep)[1]| <= |s|
  {
    var parts := Split(s, sep);
    SplitSpec(s, sep);
    var tail := parts[1..];
    assert tail[0] == parts[1];
    assert |Join(tail, sep)| >= |tail[0]|;
  }
}

=== FILE: rings.dfy ===
/** Ring normalisation between the (x, y) rings of a GeoJSON polygon and the vertex
    sequences of an s2 loop. The conversions between degrees and points are floating-point
    spherical geometry of the s2 library: they are the parameters `pointOf`
    (`PointFromLatLng(LatLngFromDegrees(lat, lng))`) and `latLngOf` (`LatLngFromPoint`,
    read back in degrees), and a point type `P` of which only equality is used. */
module Rings {
  import opened Base

  /** A coordinate pair of a GeoJSON ring: x is the longitude, y the latitude. */
  datatype XY = XY(x: real, y: real)

  /** A position in degrees as s2 takes it: latitude first. */
  datatype LatLng = LatLng(lat: real, lng: real)

  /** A ring of coordinate pairs. A polygon is a sequence of rings, the outer one first. */
  type Ring = seq<XY>

  /** The vertex for a pair: the pair swapped to (lat = y, lng = x) and made a point. */
  function Vertex<P>(xy: XY, pointOf: LatLng -> P): P
  {
    pointOf(LatLng(xy.y, xy.x))
  }

  /** The loop vertices of a ring: nil for fewer than three pairs; otherwise one vertex per
      pair in ring order, less the last one when it repeats the first. */
  function RingLoop<P(==)>(ring: Ring, pointOf: LatLng -> P): (r: Option<seq<P>>)
    ensures r.None? <==> |ring| < 3
    ensures r.Some? ==> |r.value| == |ring| || |r.value| == |ring| - 1
    ensures r.Some? ==>
      (|r.value| == |ring| - 1 <==> Vertex(ring[0], pointOf) == Vertex(ring[|ring| - 1], pointOf))
    ensures r.Some? ==> forall i :: 0 <= i < |r.value| ==> r.value[i] == Vertex(ring[i], pointOf)
  {
    if |ring| < 3 then None
    else
      var points := seq(|ring|, i requires 0 <= i < |ring| => Vertex(ring[i], pointOf));
      if points[0] == points[|points| - 1] then Some(points[..|points| - 1]) else Some(points)
  }

  /** The loop of a polygon: that of its outer ring, holes ignored. A polygon without rings
      makes `Coordinates()[0]` panic. */
  function PolygonLoop<P(==)>(rings: seq<Ring>, pointOf: LatLng -> P): (r: Result<Option<seq<P>>, Panic>)
    ensures r.Err? <==> |rings| == 0
    ensures r.Err? ==> r.error == NoOuterRing
    ensures r.Ok? ==> r.value == RingLoop(rings[0], pointOf)
  {
    if |rings| == 0 then Err(NoOuterRing) else Ok(RingLoop(rings[0], pointOf))
  }

  /** `LoopFromPolygon`, step by step: the outer ring is flattened into x, y, x, y, ...,
      the length is checked, the flat array is read back two values at a time with latitude
      and longitude swapped, and a last vertex equal to the first is cut out. */
  method LoopFromPolygon<P(==)>(rings: seq<Ring>, pointOf: LatLng -> P)
    returns (r: Result<Option<seq<P>>, Panic>)
    ensures r == PolygonLoop(rings, pointOf)
  {
    if |rings| == 0 {
      return Err(NoOuterRing);
    }
    var ring := rings[0];
    var c: seq<real> := [];
    var i := 0;
    while i < |ring|
      invariant 0 <= i <= |ring|
      invariant |c| == 2 * i
      invariant forall k :: 0 <= k < i ==> c[2 * k] == ring[k].x && c[2 * k + 1] == ring[k].y
    {
      c := c + [ring[i].x, ring[i].y];
      i := i + 1;
    }
    if |c| % 2 != 0 || |c| < 2 * 3 {
      return Ok(None);
    }
    var points: seq<P> := [];
    var j := 0;
    while j < |c|
      invariant 0 <= j <= |c| && j % 2 == 0
      invariant |points| == j / 2
      invariant forall k :: 0 <= k < j / 2 ==> points[k] == Vertex(ring[k], pointOf)
    {
      points := points + [pointOf(LatLng(c[j + 1], c[j]))];
      j := j + 2;
    }
    assert |points| == |ring| >= 3;
    assert points[0] == Vertex(ring[0], pointOf);
    assert points[|ring| - 1] == Vertex(ring[|ring| - 1], pointOf);
    var expected := RingLoop(ring, pointOf).value;
    if points[0] == points[|points| - 1] {
      assert points[|points|..] == [];
      points := points[..|points| - 1] + points[|points|..];
      assert |points| == |ring| - 1;
    }
    assert |expected| == |points|;
    assert forall k :: 0 <= k < |points| ==> expected[k] == points[k];
    assert expected == points;
    assert RingLoop(ring, pointOf).Some?;
    assert RingLoop(ring, pointOf) == Some(points);
    return Ok(Some(points));
  }

  /** The coordinate pair of a vertex: (x = lng, y = lat). */
  function Pair<P>(p: P, latLngOf: P -> LatLng): XY
  {
    XY(latLngOf(p).lng, latLngOf(p).lat)
  }

  /** The closed ring of a loop: one pair per vertex, then the first pair again. A loop
      without vertices gives the single pair (0, 0), the zero values of the array. */
  function LoopRing<P>(points: seq<P>, latLngOf: P -> LatLng): (ring: Ring)
    ensures |ring| == |points| + 1
    ensures forall i :: 0 <= i < |points| ==> ring[i] == Pair(points[i], latLngOf)
    ensures ring[|points|] == ring[0]
    ensures |points| == 0 ==> ring == [XY(0.0, 0.0)]
  {
    if |points| == 0 then [XY(0.0, 0.0)]
    else
      var pairs := seq(|points|, i requires 0 <= i < |points| => Pair(points[i], latLngOf));
      pairs + [pairs[0]]
  }

  /** `GeomFromLoop`, step by step: a flat array of 2 * (n + 1) zeros, filled with
      lng, lat per vertex, and its last two slots set to its first two. */
  method GeomFromLoop<P>(points: seq<P>, latLngOf: P -> LatLng) returns (ring: Ring)
    ensures ring == LoopRing(points, latLngOf)
  {
    var n := |points|;
    var coords: seq<real> := seq(2 * (n + 1), _ => 0.0);
    var i := 0;
    while i < n
      invariant 0 <= i <= n
      invariant |coords| == 2 * (n + 1)
      invariant forall k :: 0 <= k < i ==>
        coords[2 * k] == latLngOf(points[k]).lng && coords[2 * k + 1] == latLngOf(points[k]).lat
      invariant forall k :: 2 * i <= k < |coords| ==> coords[k] == 0.0
    {
      coords := coords[2 * i := latLngOf(points[i]).lng][2 * i + 1 := latLngOf(points[i]).lat];
      i := i + 1;
    }
    coords := coords[2 * n := coords[0]][2 * n + 1 := coords[1]];
    ring := seq(n + 1, k requires 0 <= k < n + 1 => XY(coords[2 * k], coords[2 * k + 1]));
  }

  /** A loop made from a ring, written back, is the ring closed: the ring itself when its
      last pair repeats the first, the ring with its first pair appended otherwise. This
      holds when the two conversions undo each other on the ring's positions. */
  lemma RingRoundTrip<P>(ring: Ring, pointOf: LatLng -> P, latLngOf: P -> LatLng)
    requires |ring| >= 3
    requires forall i :: 0 <= i < |ring| ==> latLngOf(Vertex(ring[i], pointOf)) == LatLng(ring[i].y, ring[i].x)
    ensures var closed := Vertex(ring[0], pointOf) == Vertex(ring[|ring| - 1], pointOf);
      LoopRing(RingLoop(ring, pointOf).value, latLngOf) == if closed then ring else ring + [ring[0]]
  {
    var n := |ring|;
    var loop := RingLoop(ring, pointOf).value;
    var back := LoopRing(loop, latLngOf);
    assert forall i :: 0 <= i < |loop| ==> back[i] == ring[i] by {
      forall i | 0 <= i < |loop| ensures back[i] == ring[i] {
        assert back[i] == Pair(loop[i], latLngOf);
        assert latLngOf(loop[i]) == LatLng(ring[i].y, ring[i].x);
      }
    }
    if Vertex(ring[0], pointOf) == Vertex(ring[n - 1], pointOf) {
      assert latLngOf(Vertex(ring[0], pointOf)) == latLngOf(Vertex(ring[n - 1], pointOf));
      assert ring[n - 1] == ring[0];
      assert back[n - 1] == ring[n - 1];
    } else {
      assert back[n] == ring[0];
    }
  }
}

=== FILE: roundtrip.dfy ===
/** What the record codec promises: how the reader frames a record, the round trip of
    whole records and whole streams, and what a '|' inside a name does to it. */
module RoundTrip {
  import opened Base
  import opened BigEndian
  import opened Stream
  import opened Labels
  import opened Codec

  /** The conditions under which `saveLoop` writes a record the reader gives back
      unchanged: no '|' in either attribute and both lengths within their headers. */
  predicate Encodable(payload: seq<byte>, name: seq<byte>, iso: seq<byte>)
  {
    && Pipe !in name && Pipe !in iso
    && |name| + 1 + |iso| < Two16
    && |payload| < Two32
  }

  /** Every record of a sequence is encodable, and the loop decoder gives back each loop
      from its encoding. */
  ghost predicate AllEncodable<L>(loops: seq<IndexedLoop<L>>, encodeLoop: L -> seq<byte>,
                                  decodeLoop: seq<byte> -> Result<L, IoError>)
  {
    forall i :: 0 <= i < |loops| ==>
      && Encodable(encodeLoop(loops[i].loop), loops[i].name, loops[i].country)
      && decodeLoop(encodeLoop(loops[i].loop)) == Ok(loops[i].loop)
  }

  /** The reader takes exactly `size` label bytes after the first header and exactly
      `lsize` payload bytes after the second, and the next record starts right after the
      payload; the name and country are the first two '|'-pieces of the label. */
  lemma ReadRecordFrames<L>(s: seq<byte>, decodeLoop: seq<byte> -> Result<L, IoError>)
    requires ReadRecord(s, decodeLoop).Next?
    ensures 2 <= |s|
    ensures var size := Uint16(s[..2]);
      && 6 + size <= |s|
      && var lsize := Uint32(s[2 + size..6 + size]);
      && var r := ReadRecord(s, decodeLoop);
      && 6 + size + lsize <= |s|
      && r.rest == s[6 + size + lsize..]
      && decodeLoop(s[6 + size..6 + size + lsize]) == Ok(r.loop.loop)
      && |Split(s[2..2 + size], Pipe)| >= 2
      && r.loop.name == Split(s[2..2 + size], Pipe)[0]
      && r.loop.country == Split(s[2..2 + size], Pipe)[1]
  {
    var size := Uint16(s[..2]);
    assert s[2..][..size] == s[2..2 + size];
    assert s[2..][size..] == s[2 + size..];
    assert s[2 + size..][..4] == s[2 + size..6 + size];
    assert s[2 + size..][4..] == s[6 + size..];
    var lsize := Uint32(s[2 + size..6 + size]);
    assert s[6 + size..][..lsize] == s[6 + size..6 + size + lsize];
    assert s[6 + size..][lsize..] == s[6 + size + lsize..];
  }

  /** The converse framing: a stream whose headers, label and payload sit where a record
      puts them, with a payload the loop decoder accepts and a label holding a '|'. */
  lemma ReadFramedRecord<L>(s: seq<byte>, n: nat, m: nat,
                            decodeLoop: seq<byte> -> Result<L, IoError>, l: L,
                            name: seq<byte>, country: seq<byte>, rest: seq<byte>)
    requires 6 + n + m <= |s|
    requires Uint16(s[..2]) == n
    requires Uint32(s[2 + n..6 + n]) == m
    requires decodeLoop(s[6 + n..6 + n + m]) == Ok(l)
    requires |Split(s[2..2 + n], Pipe)| >= 2
    requires Split(s[2..2 + n], Pipe)[0] == name && Split(s[2..2 + n], Pipe)[1] == country
    requires s[6 + n + m..] == rest
    ensures ReadRecord(s, decodeLoop) == Next(IndexedLoop(l, name, country), rest)
  {
    assert s[2..][..n] == s[2..2 + n];
    assert s[2..][n..] == s[2 + n..];
    assert s[2 + n..][..4] == s[2 + n..6 + n];
    assert s[2 + n..][4..] == s[6 + n..];
    assert s[6 + n..][..m] == s[6 + n..6 + n + m];
    assert s[6 + n..][m..] == s[6 + n + m..];
  }

  /** A record whose label holds no '|' is read in full, its payload decoded, and only then
      does the loop stop: with the decoder's error if it fails, and with the out-of-range
      panic on `svals[1]` if it succeeds. */
  lemma PipelessLabel<L>(s: seq<byte>, n: nat, m: nat, decodeLoop: seq<byte> -> Result<L, IoError>)
    requires 6 + n + m <= |s|
    requires Uint16(s[..2]) == n
    requires Uint32(s[2 + n..6 + n]) == m
    requires Pipe !in s[2..2 + n]
    ensures ReadRecord(s, decodeLoop)
            == match decodeLoop(s[6 + n..6 + n + m])
               case Err(e) => Stop(Returned(e))
               case Ok(_) => Stop(IndexOutOfRange)
  {
    SplitSpec(s[2..2 + n], Pipe);
    assert s[2..][..n] == s[2..2 + n];
    assert s[2..][n..] == s[2 + n..];
    assert s[2 + n..][..4] == s[2 + n..6 + n];
    assert s[2 + n..][4..] == s[6 + n..];
    assert s[6 + n..][..m] == s[6 + n..6 + n + m];
  }

  /** A framed record whose payload the loop decoder rejects stops the loop with the
      decoder's error, whatever the label holds. */
  lemma FramedDecodeError<L>(s: seq<byte>, n: nat, m: nat, decodeLoop: seq<byte> -> Result<L, IoError>,
                             e: IoError)
    requires 6 + n + m <= |s|
    requires Uint16(s[..2]) == n
    requires Uint32(s[2 + n..6 + n]) == m
    requires decodeLoop(s[6 + n..6 + n + m]) == Err(e)
    ensures ReadRecord(s, decodeLoop) == Stop(Returned(e))
  {
    assert s[2..][..n] == s[2..2 + n];
    assert s[2..][n..] == s[2 + n..];
    assert s[2 + n..][..4] == s[2 + n..6 + n];
    assert s[2 + n..][4..] == s[6 + n..];
    assert s[6 + n..][..m] == s[6 + n..6 + n + m];
  }

  /** One record read back: encodable attributes and a loop the decoder accepts come
      back exactly, and the reader stops right after the record. */
  lemma RecordRoundTrip<L>(payload: seq<byte>, name: seq<byte>, iso: seq<byte>, rest: seq<byte>,
                           decodeLoop: seq<byte> -> Result<L, IoError>, l: L)
    requires Encodable(payload, name, iso)
    requires decodeLoop(payload) == Ok(l)
    ensures ReadRecord(SaveLoop(payload, name, iso) + rest, decodeLoop)
            == Next(IndexedLoop(l, name, iso), rest)
  {
    var s := SaveLoop(payload, name, iso) + rest;
    var n := |name| + 1 + |iso|;
    RecordFields(payload, name, iso, rest, s, n);
    ReadFramedRecord(s, n, |payload|, decodeLoop, l, name, iso, rest);
  }

  /** The fields the reader finds in a record with encodable attributes. */
  lemma RecordFields(payload: seq<byte>, name: seq<byte>, iso: seq<byte>, rest: seq<byte>,
                      s: seq<byte>, n: nat)
    requires Encodable(payload, name, iso)
    requires s == SaveLoop(payload, name, iso) + rest
    requires n == |name| + 1 + |iso|
    ensures 6 + n + |payload| <= |s|
    ensures Uint16(s[..2]) == n
    ensures Uint32(s[2 + n..6 + n]) == |payload|
    ensures s[6 + n..6 + n + |payload|] == payload
    ensures s[6 + n + |payload|..] == rest
    ensures |Split(s[2..2 + n], Pipe)| >= 2
    ensures Split(s[2..2 + n], Pipe)[0] == name
    ensures Split(s[2..2 + n], Pipe)[1] == iso
  {
    assert Join([name, iso], Pipe) == Label(name, iso);
    SplitJoin([name, iso], Pipe);
    RecordLayout(payload, name, iso, rest);
  }

  /** A '|' inside the name breaks the round trip: the name comes back cut at its first
      '|', the country is the piece of the name after it, and the real country code is
      lost. */
  lemma PipeInNameTruncates<L>(name: seq<byte>, a: seq<byte>, b: seq<byte>, iso: seq<byte>,
                               payload: seq<byte>, rest: seq<byte>,
                               decodeLoop: seq<byte> -> Result<L, IoError>, l: L)
    requires name == a + [Pipe] + b && Pipe !in a
    requires |name| + 1 + |iso| < Two16 && |payload| < Two32
    requires decodeLoop(payload) == Ok(l)
    ensures ReadRecord(SaveLoop(payload, name, iso) + rest, decodeLoop)
            == Next(IndexedLoop(l, a, Split(b, Pipe)[0]), rest)
  {
    var s := SaveLoop(payload, name, iso) + rest;
    var n := |name| + 1 + |iso|;
    PipeInNameFields(name, a, b, iso, payload, rest, s, n);
    ReadFramedRecord(s, n, |payload|, decodeLoop, l, a, Split(b, Pipe)[0], rest);
  }

  /** The fields the reader finds in a record whose name holds a '|'. */
  lemma PipeInNameFields(name: seq<byte>, a: seq<byte>, b: seq<byte>, iso: seq<byte>,
                          payload: seq<byte>, rest: seq<byte>, s: seq<byte>, n: nat)
    requires name == a + [Pipe] + b && Pipe !in a
    requires |name| + 1 + |iso| < Two16 && |payload| < Two32
    requires s == SaveLoop(payload, name, iso) + rest
    requires n == |name| + 1 + |iso|
    ensures 6 + n + |payload| <= |s|
    ensures Uint16(s[..2]) == n
    ensures Uint32(s[2 + n..6 + n]) == |payload|
    ensures s[6 + n..6 + n + |payload|] == payload
    ensures s[6 + n + |payload|..] == rest
    ensures |Split(s[2..2 + n], Pipe)| >= 2
    ensures Split(s[2..2 + n], Pipe)[0] == a
    ensures Split(s[2..2 + n], Pipe)[1] == Split(b, Pipe)[0]
  {
    PipeLabelSplit(a, b, iso);
    RecordLayout(payload, name, iso, rest);
  }

  /** The '|'-pieces of the label of a name that holds a '|'. */
  lemma PipeLabelSplit(a: seq<byte>, b: seq<byte>, iso: seq<byte>)
    requires Pipe !in a
    ensures var parts := Split(Label(a + [Pipe] + b, iso), Pipe);
      |parts| >= 2 && parts[0] == a && parts[1] == Split(b, Pipe)[0]
  {
    var tail := b + [Pipe] + iso;
    assert Label(a + [Pipe] + b, iso) == a + [Pipe] + tail;
    SplitAfterFirst(a, tail, Pipe);
    SplitFirstPiece(b, iso, Pipe);
  }

  /** The record loop after one successful turn. */
  lemma ReadRecordsStep<L>(s: seq<byte>, decodeLoop: seq<byte> -> Result<L, IoError>)
    requires ReadRecord(s, decodeLoop).Next?
    ensures var r := ReadRecord(s, decodeLoop);
      ReadRecords(s, decodeLoop)
      == Decoded([r.loop] + ReadRecords(r.rest, decodeLoop).loops, ReadRecords(r.rest, decodeLoop).halt)
  {
  }

  /** Reading a written record followed by anything. */
  lemma ReadRecordsOne<L>(payload: seq<byte>, name: seq<byte>, iso: seq<byte>, more: seq<byte>,
                          decodeLoop: seq<byte> -> Result<L, IoError>, l: L)
    requires Encodable(payload, name, iso)
    requires decodeLoop(payload) == Ok(l)
    ensures ReadRecords(SaveLoop(payload, name, iso) + more, decodeLoop)
            == Decoded([IndexedLoop(l, name, iso)] + ReadRecords(more, decodeLoop).loops,
                       ReadRecords(more, decodeLoop).halt)
  {
    RecordRoundTrip(payload, name, iso, more, decodeLoop, l);
    ReadRecordsStep(SaveLoop(payload, name, iso) + more, decodeLoop);
  }

  lemma AllEncodableAt<L>(loops: seq<IndexedLoop<L>>, encodeLoop: L -> seq<byte>,
                          decodeLoop: seq<byte> -> Result<L, IoError>, i: nat)
    requires i < |loops|
    requires AllEncodable(loops, encodeLoop, decodeLoop)
    ensures Encodable(encodeLoop(loops[i].loop), loops[i].name, loops[i].country)
    ensures decodeLoop(encodeLoop(loops[i].loop)) == Ok(loops[i].loop)
  {
  }

  lemma SaveAllCons<L>(loops: seq<IndexedLoop<L>>, encodeLoop: L -> seq<byte>)
    requires |loops| > 0
    ensures SaveAll(loops, encodeLoop)
            == SaveLoop(encodeLoop(loops[0].loop), loops[0].name, loops[0].country)
               + SaveAll(loops[1..], encodeLoop)
  {
  }

  lemma AllEncodableTail<L>(loops: seq<IndexedLoop<L>>, encodeLoop: L -> seq<byte>,
                            decodeLoop: seq<byte> -> Result<L, IoError>)
    requires |loops| > 0
    requires AllEncodable(loops, encodeLoop, decodeLoop)
    ensures AllEncodable(loops[1..], encodeLoop, decodeLoop)
  {
    forall i | 0 <= i < |loops[1..]|
      ensures Encodable(encodeLoop(loops[1..][i].loop), loops[1..][i].name, loops[1..][i].country)
      ensures decodeLoop(encodeLoop(loops[1..][i].loop)) == Ok(loops[1..][i].loop)
    {
      assert loops[1..][i] == loops[i + 1];
    }
  }

  /** Reading whole records followed by anything gives those records, in order, followed
      by whatever the remainder gives. */
  lemma {:induction false} ReadRecordsAppend<L>(loops: seq<IndexedLoop<L>>, t: seq<byte>,
                                                encodeLoop: L -> seq<byte>,
                                                decodeLoop: seq<byte> -> Result<L, IoError>)
    requires AllEncodable(loops, encodeLoop, decodeLoop)
    ensures ReadRecords(SaveAll(loops, encodeLoop) + t, decodeLoop)
            == Decoded(loops + ReadRecords(t, decodeLoop).loops, ReadRecords(t, decodeLoop).halt)
    decreases |loops|
  {
    if |loops| == 0 {
      assert SaveAll(loops, encodeLoop) + t == t;
    } else {
      ReadRecordsHead(loops, t, encodeLoop, decodeLoop);
      AllEncodableTail(loops, encodeLoop, decodeLoop);
      ReadRecordsAppend(loops[1..], t, encodeLoop, decodeLoop);
      DecodedCons(loops,
                  ReadRecords(SaveAll(loops, encodeLoop) + t, decodeLoop),
                  ReadRecords(SaveAll(loops[1..], encodeLoop) + t, decodeLoop),
                  ReadRecords(t, decodeLoop));
    }
  }

  /** Gluing the first decoded loop to the decoded rest. */
  lemma DecodedCons<L>(loops: seq<IndexedLoop<L>>, whole: Decoded<L>, more: Decoded<L>, last: Decoded<L>)
    requires |loops| > 0
    requires whole == Decoded([loops[0]] + more.loops, more.halt)
    requires more == Decoded(loops[1..] + last.loops, last.halt)
    ensures whole == Decoded(loops + last.loops, last.halt)
  {
    assert [loops[0]] + (loops[1..] + last.loops) == loops + last.loops by {
      assert [loops[0]] + loops[1..] == loops;
    }
  }

  /** One turn of the record loop over a stream of written records. */
  lemma ReadRecordsHead<L>(loops: seq<IndexedLoop<L>>, t: seq<byte>,
                           encodeLoop: L -> seq<byte>,
                           decodeLoop: seq<byte> -> Result<L, IoError>)
    requires |loops| > 0
    requires AllEncodable(loops, encodeLoop, decodeLoop)
    ensures ReadRecords(SaveAll(loops, encodeLoop) + t, decodeLoop)
            == Decoded([loops[0]] + ReadRecords(SaveAll(loops[1..], encodeLoop) + t, decodeLoop).loops,
                       ReadRecords(SaveAll(loops[1..], encodeLoop) + t, decodeLoop).halt)
  {
    var x := loops[0];
    var head := SaveLoop(encodeLoop(x.loop), x.name, x.country);
    var more := SaveAll(loops[1..], encodeLoop) + t;
    assert SaveAll(loops, encodeLoop) + t == head + more;
    ReadRecordsOne(encodeLoop(x.loop), x.name, x.country, more, decodeLoop, x.loop);
  }

  /** Writing loops one after another and opening the result gives back the same loops in
      the same order, with no error: the stream ends exactly at a record boundary and the
      final `io.EOF` counts as success. */
  lemma StreamRoundTrip<L>(loops: seq<IndexedLoop<L>>, encodeLoop: L -> seq<byte>,
                           decodeLoop: seq<byte> -> Result<L, IoError>)
    requires AllEncodable(loops, encodeLoop, decodeLoop)
    ensures OpenIndexFromData(SaveAll(loops, encodeLoop), decodeLoop) == Ok(loops)
  {
    ReadRecordsAppend(loops, [], encodeLoop, decodeLoop);
    assert SaveAll(loops, encodeLoop) + [] == SaveAll(loops, encodeLoop);
    assert loops + [] == loops;
  }

  /** A loop decoder that reports `io.EOF` on a record's payload ends the stream as a
      success: the records before it are the whole index, and that record and every byte
      after it are silently dropped. */
  lemma DecoderEofDropsRest<L>(loops: seq<IndexedLoop<L>>, payload: seq<byte>, name: seq<byte>,
                               iso: seq<byte>, rest: seq<byte>, encodeLoop: L -> seq<byte>,
                               decodeLoop: seq<byte> -> Result<L, IoError>)
    requires AllEncodable(loops, encodeLoop, decodeLoop)
    requires |name| + 1 + |iso| < Two16 && |payload| < Two32
    requires decodeLoop(payload) == Err(EOF)
    ensures OpenIndexFromData(SaveAll(loops, encodeLoop) + (SaveLoop(payload, name, iso) + rest), decodeLoop)
            == Ok(loops)
  {
    var t := SaveLoop(payload, name, iso) + rest;
    var n := |name| + 1 + |iso|;
    RecordLayout(payload, name, iso, rest);
    FramedDecodeError(t, n, |payload|, decodeLoop, EOF);
    ReadRecordsAppend(loops, t, encodeLoop, decodeLoop);
    assert loops + [] == loops;
  }
}

=== FILE: stream.dfy ===
/** A reader over an in-memory byte stream, with the three outcomes of Go's `io.ReadFull`
    and of `binary.Read` into a fixed-size integer: every byte asked for (`Got`), nothing
    at all (`EOF`), or some but not all (`UnexpectedEOF`). */
module Stream {
  import opened Base
  import opened BigEndian

  /** Errors a reader can report; `Other` stands for any error of a foreign decoder. */
  datatype IoError = EOF | UnexpectedEOF | Other(code: nat)

  /** The outcome of one read: the value and the unread remainder, or an error. */
  datatype Read<+T> = Got(value: T, rest: seq<byte>) | Failed(err: IoError)

  /** `io.ReadFull(r, make([]byte, n))` on the stream `s`. Asking for zero bytes always
      succeeds, even at the end of the stream. */
  function ReadFull(s: seq<byte>, n: nat): (r: Read<seq<byte>>)
    ensures r.Got? <==> n <= |s|
    ensures r.Got? ==> r.value == s[..n] && r.rest == s[n..]
    ensures r.Failed? ==> (r.err == EOF <==> |s| == 0)
    ensures r.Failed? ==> (r.err == UnexpectedEOF <==> 0 < |s|)
  {
    if n <= |s| then Got(s[..n], s[n..])
    else if |s| == 0 then Failed(EOF)
    else Failed(UnexpectedEOF)
  }

  /** `binary.Read(r, binary.BigEndian, &size)` with `size` a `uint16`. */
  function ReadUint16(s: seq<byte>): (r: Read<nat>)
    ensures r.Got? <==> 2 <= |s|
    ensures r.Got? ==> r.value == Uint16(s[..2]) && r.rest == s[2..]
    ensures r.Failed? ==> (r.err == EOF <==> |s| == 0)
    ensures r.Failed? ==> (r.err == UnexpectedEOF <==> |s| == 1)
  {
    match ReadFull(s, 2)
    case Got(b, rest) => Got(Uint16(b), rest)
    case Failed(e) => Failed(e)
  }

  /** `binary.Read(r, binary.BigEndian, &lsize)` with `lsize` a `uint32`. */
  function ReadUint32(s: seq<byte>): (r: Read<nat>)
    ensures r.Got? <==> 4 <= |s|
    ensures r.Got? ==> r.value == Uint32(s[..4]) && r.rest == s[4..]
    ensures r.Failed? ==> (r.err == EOF <==> |s| == 0)
    ensures r.Failed? ==> (r.err == UnexpectedEOF <==> 1 <= |s| <= 3)
  {
    match ReadFull(s, 4)
    case Got(b, rest) => Got(Uint32(b), rest)
    case Failed(e) => Failed(e)
  }

  /** Reading a value from its own encoding followed by anything yields the value and
      leaves exactly what followed. */
  lemma ReadUint16Put(v: nat, rest: seq<byte>)
    requires v < Two16
    ensures ReadUint16(PutUint16(v) + rest) == Got(v, rest)
  {
    var s := PutUint16(v) + rest;
    var r := ReadUint16(s);
    assert r.Got?;
    assert s[..2] == PutUint16(v) && s[2..] == rest;
  }

  lemma ReadUint32Put(v: nat, rest: seq<byte>)
    requires v < Two32
    ensures ReadUint32(PutUint32(v) + rest) == Got(v, rest)
  {
    var s := PutUint32(v) + rest;
    var r := ReadUint32(s);
    assert r.Got?;
    assert s[..4] == PutUint32(v) && s[4..] == rest;
  }

  lemma ReadFullPrefix(b: seq<byte>, rest: seq<byte>)
    ensures ReadFull(b + rest, |b|) == Got(b, rest)
  {
    assert (b + rest)[..|b|] == b && (b + rest)[|b|..] == rest;
  }
}

=== FILE: truncation.dfy ===
/** Which truncations of a written stream the reader accepts. `io.ReadFull` and
    `binary.Read` report `io.EOF` when not one byte of the field is left, and the record
    loop treats every `io.EOF` as the clean end of the stream, so a cut that falls exactly
    in front of a field of a record is accepted, and the record is silently dropped. Any
    other cut is `io.ErrUnexpectedEOF`. */
module Truncation {
  import opened Base
  import opened BigEndian
  import opened Stream
  import opened Labels
  import opened Codec
  import opened RoundTrip

  /** A cut `k` bytes into a record whose label has `n` bytes falls in front of one of its
      four fields: the label length, the label, the payload length or the payload. */
  predicate FieldBoundary(k: nat, n: nat)
  {
    k == 0 || k == 2 || k == 2 + n || k == 6 + n
  }

  /** The record loop on a stream shorter than the record its headers announce: it stops
      at once, with `io.EOF` when the stream ends on a field boundary and
      `io.ErrUnexpectedEOF` otherwise. */
  lemma ReadShortRecord<L>(t: seq<byte>, n: nat, m: nat, decodeLoop: seq<byte> -> Result<L, IoError>)
    requires |t| < 6 + n + m
    requires 2 <= |t| ==> Uint16(t[..2]) == n
    requires 6 + n <= |t| ==> Uint32(t[2 + n..6 + n]) == m
    ensures ReadRecord(t, decodeLoop)
            == Stop(Returned(if FieldBoundary(|t|, n) then EOF else UnexpectedEOF))
  {
    if 2 <= |t| {
      if 2 + n <= |t| {
        assert t[2..][n..] == t[2 + n..];
        if 6 + n <= |t| {
          assert t[2 + n..][..4] == t[2 + n..6 + n];
          assert t[2 + n..][4..] == t[6 + n..];
        }
      }
    }
  }

  /** The fields of a record cut after `k` bytes. */
  lemma CutRecordFields(payload: seq<byte>, name: seq<byte>, iso: seq<byte>, k: nat, t: seq<byte>)
    requires |name| + 1 + |iso| < Two16 && |payload| < Two32
    requires k < |SaveLoop(payload, name, iso)|
    requires t == SaveLoop(payload, name, iso)[..k]
    ensures |t| == k
    ensures k < 6 + (|name| + 1 + |iso|) + |payload|
    ensures 2 <= k ==> Uint16(t[..2]) == |name| + 1 + |iso|
    ensures 6 + (|name| + 1 + |iso|) <= k
            ==> Uint32(t[2 + (|name| + 1 + |iso|)..6 + (|name| + 1 + |iso|)]) == |payload|
  {
    var e := SaveLoop(payload, name, iso);
    var n := |name| + 1 + |iso|;
    RecordLayout(payload, name, iso, []);
    assert e + [] == e;
    if 2 <= k {
      assert t[..2] == e[..2];
    }
    if 6 + n <= k {
      assert t[2 + n..6 + n] == e[2 + n..6 + n];
    }
  }

  /** One turn of the record loop on a record cut after `k` bytes: it stops at once,
      with `io.EOF` exactly when the cut falls on a field boundary. */
  lemma CutRecordStops<L>(payload: seq<byte>, name: seq<byte>, iso: seq<byte>, k: nat,
                          decodeLoop: seq<byte> -> Result<L, IoError>)
    requires |name| + 1 + |iso| < Two16 && |payload| < Two32
    requires k < |SaveLoop(payload, name, iso)|
    ensures ReadRecord(SaveLoop(payload, name, iso)[..k], decodeLoop)
            == Stop(Returned(if FieldBoundary(k, |name| + 1 + |iso|) then EOF else UnexpectedEOF))
  {
    var t := SaveLoop(payload, name, iso)[..k];
    CutRecordFields(payload, name, iso, k, t);
    ReadShortRecord(t, |name| + 1 + |iso|, |payload|, decodeLoop);
  }

  /** Every proper prefix of a written stream is some whole records followed by a proper
      prefix of the next one. */
  lemma {:induction false} CutAt<L>(loops: seq<IndexedLoop<L>>, c: nat, encodeLoop: L -> seq<byte>)
    returns (j: nat, k: nat)
    requires c < |SaveAll(loops, encodeLoop)|
    ensures j < |loops|
    ensures k < |SaveLoop(encodeLoop(loops[j].loop), loops[j].name, loops[j].country)|
    ensures SaveAll(loops, encodeLoop)[..c]
            == SaveAll(loops[..j], encodeLoop) + SaveLoop(encodeLoop(loops[j].loop), loops[j].name, loops[j].country)[..k]
    decreases |loops|
  {
    var head := SaveLoop(encodeLoop(loops[0].loop), loops[0].name, loops[0].country);
    SaveAllCons(loops, encodeLoop);
    if c < |head| {
      j, k := 0, c;
      CutInHead(head, SaveAll(loops[1..], encodeLoop), c);
      assert SaveAll(loops[..0], encodeLoop) == [];
    } else {
      var tail := loops[1..];
      var c2: nat := c - |head|;
      var j2, k2 := CutAt(tail, c2, encodeLoop);
      j, k := j2 + 1, k2;
      CutPastFront(head, SaveAll(tail, encodeLoop), c);
      SaveAllFront(loops, j2, encodeLoop);
      assert loops[j] == tail[j2];
      Associate(head, SaveAll(tail[..j2], encodeLoop),
                SaveLoop(encodeLoop(tail[j2].loop), tail[j2].name, tail[j2].country)[..k2]);
    }
  }

  /** The first `j + 1` records are the first record and the first `j` of the rest. */
  lemma SaveAllFront<L>(loops: seq<IndexedLoop<L>>, j: nat, encodeLoop: L -> seq<byte>)
    requires j < |loops|
    ensures SaveAll(loops[..j + 1], encodeLoop)
            == SaveLoop(encodeLoop(loops[0].loop), loops[0].name, loops[0].country)
               + SaveAll(loops[1..][..j], encodeLoop)
  {
    var front := loops[..j + 1];
    assert front[0] == loops[0];
    assert front[1..] == loops[1..][..j];
    SaveAllCons(front, encodeLoop);
  }

  lemma CutInHead(a: seq<byte>, b: seq<byte>, k: nat)
    requires k < |a|
    ensures (a + b)[..k] == a[..k]
  {
  }

  lemma CutPastFront(a: seq<byte>, b: seq<byte>, k: nat)
    requires |a| <= k <= |a| + |b|
    ensures (a + b)[..k] == a + b[..k - |a|]
  {
  }

  /** The record loop on whole records followed by a proper prefix of one more: the whole
      records, in order, and then a stop, with `io.EOF` exactly when the cut falls on a
      field boundary of the last record. */
  lemma TruncatedAfter<L>(loops: seq<IndexedLoop<L>>, x: IndexedLoop<L>, k: nat,
                          encodeLoop: L -> seq<byte>,
                          decodeLoop: seq<byte> -> Result<L, IoError>)
    requires AllEncodable(loops, encodeLoop, decodeLoop)
    requires |x.name| + 1 + |x.country| < Two16 && |encodeLoop(x.loop)| < Two32
    requires k < |SaveLoop(encodeLoop(x.loop), x.name, x.country)|
    ensures ReadRecords(SaveAll(loops, encodeLoop) + SaveLoop(encodeLoop(x.loop), x.name, x.country)[..k],
                        decodeLoop)
            == Decoded(loops, Returned(if FieldBoundary(k, |x.name| + 1 + |x.country|) then EOF else UnexpectedEOF))
  {
    var cut := SaveLoop(encodeLoop(x.loop), x.name, x.country)[..k];
    ReadRecordsAppend(loops, cut, encodeLoop, decodeLoop);
    CutRecordStops(encodeLoop(x.loop), x.name, x.country, k, decodeLoop);
    assert loops + [] == loops;
  }

  /** Opening a prefix of a written stream that ends inside record `j`, `k` bytes into it:
      the records before it and no error when the cut falls on a field boundary, so the
      cut record is silently dropped; `io.ErrUnexpectedEOF` and no index otherwise. */
  lemma TruncatedOpen<L>(loops: seq<IndexedLoop<L>>, j: nat, k: nat,
                         encodeLoop: L -> seq<byte>,
                         decodeLoop: seq<byte> -> Result<L, IoError>)
    requires AllEncodable(loops, encodeLoop, decodeLoop)
    requires j < |loops|
    requires k < |SaveLoop(encodeLoop(loops[j].loop), loops[j].name, loops[j].country)|
    ensures var s := SaveAll(loops[..j], encodeLoop)
                     + SaveLoop(encodeLoop(loops[j].loop), loops[j].name, loops[j].country)[..k];
      OpenIndexFromData(s, decodeLoop)
      == if FieldBoundary(k, |loops[j].name| + 1 + |loops[j].country|) then Ok(loops[..j])
         else Err(Returned(UnexpectedEOF))
  {
    AllEncodableFront(loops, j, encodeLoop, decodeLoop);
    AllEncodableAt(loops, encodeLoop, decodeLoop, j);
    TruncatedAfter(loops[..j], loops[j], k, encodeLoop, decodeLoop);
  }

  /** Every proper prefix of a written stream either opens, to a proper prefix of its
      records, or fails with `io.ErrUnexpectedEOF`; it never yields a record that was not
      written, nor any other error. */
  lemma PrefixOpens<L>(loops: seq<IndexedLoop<L>>, c: nat, encodeLoop: L -> seq<byte>,
                       decodeLoop: seq<byte> -> Result<L, IoError>)
    requires AllEncodable(loops, encodeLoop, decodeLoop)
    requires c < |SaveAll(loops, encodeLoop)|
    ensures var r := OpenIndexFromData(SaveAll(loops, encodeLoop)[..c], decodeLoop);
      r == Err(Returned(UnexpectedEOF))
      || (r.Ok? && exists j :: 0 <= j < |loops| && r.value == loops[..j])
  {
    var j, k := CutAt(loops, c, encodeLoop);
    TruncatedOpen(loops, j, k, encodeLoop, decodeLoop);
  }

  lemma AllEncodableFront<L>(loops: seq<IndexedLoop<L>>, j: nat, encodeLoop: L -> seq<byte>,
                             decodeLoop: seq<byte> -> Result<L, IoError>)
    requires j <= |loops|
    requires AllEncodable(loops, encodeLoop, decodeLoop)
    ensures AllEncodable(loops[..j], encodeLoop, decodeLoop)
  {
    forall i | 0 <= i < j
      ensures Encodable(encodeLoop(loops[..j][i].loop), loops[..j][i].name, loops[..j][i].country)
      ensures decodeLoop(encodeLoop(loops[..j][i].loop)) == Ok(loops[..j][i].loop)
    {
      assert loops[..j][i] == loops[i];
    }
  }
}
